=== FILE: README.md ===
# Movie reviews on a document store — a Dafny model

This project models the rules a Django movie-review site applies to its MongoDB
document store:

- one review per (movie, user) and the movie's average rating and review count
  derived from its reviews;
- the watchlist, the view history and the notifications (the high-rating fan-out
  to watchlist owners and the bulk mark-read);
- the support-ticket lifecycle and the admin's movie management;
- the decision logic of the views that drive them (favourite toggle, review
  submission, mark-read, ticket management, admin check) and the review form;
- the user registry (lower-cased unique emails, unique usernames, active-only
  authentication against a password hash);
- the session store with expiry;
- the pure helpers of the query tool: the `--keys` parser, the index suggestion,
  the collection-scan search over an explain plan and the recommendation rules.

The store is an immutable value (`Documents.Db`): one sequence per collection, in
natural order, so `find_one`, `update_one` and `delete_one` act on the first match
as Mongo does. Each operation is a pure function from a store to a new store and
a result. `Db.enabled` is false when the application has no store
(`USE_MONGODB` off); every helper then returns its "nothing done" value. Times
are abstract integers passed in by the caller. Averages are reals. The password
hash is a function parameter. The random session-key generator is a finite
sequence of candidate keys.

Modules, one per file: `Base` (Option, Result), `Text` (the Python string
operations used: `strip`, `split`, `lower`, `int`, `str`), `ReviewForms`,
`Documents` (records and the store), `Reviews`, `Watchlist`, `Notifications`,
`Tickets`, `Catalog`, `Users`, `Sessions`, `QueryTools`, `Views`.

## Model

| member | source | states |
|---|---|---|
| `ReviewForms.CleanRating` | movies/forms.py:11-15 | a rating in 1..5 is returned unchanged; anything else is a validation error, and only that |
| `ReviewForms.CleanText` | movies/forms.py:8-9 | a text field is cleaned to its stripped value; it is accepted exactly when the stripped value fits the maximum length and holds no NUL |
| `ReviewForms.CleanRatingField` | movies/forms.py:5-15 | the rating field accepts exactly the labels "1" to "5"; the cleaned value is a rating choice whose decimal form is the label |
| `ReviewForms.ChoiceLabelsParse` | movies/forms.py:12 | `int()` of each accepted label is the choice at the same position |
| `ReviewForms.ValidateReview` | movies/forms.py:4-15 | the form is valid exactly when the rating is a label, the stripped title is at most 255 characters and neither text holds NUL; a valid form yields a rating in 1..5 and the stripped texts; an invalid one reports at least one error |
| `ReviewForms.OnlyFiveReachesThreshold` | movies/views.py:140 | of the ratings the form accepts, only 5 reaches the 4.5 notification threshold |
| `Text.TrimStartSpec` | scripts/mongo_tools.py:207 | the result is a suffix of the input; the dropped prefix is all whitespace and the result does not start with whitespace |
| `Text.TrimEndSpec` | scripts/mongo_tools.py:207 | the result is a prefix of the input; the dropped suffix is all whitespace and the result does not end with whitespace |
| `Text.StripEmptyIffBlank` | scripts/mongo_tools.py:207 | `p.strip()` is empty exactly when every character of `p` is whitespace |
| `Text.Split` | scripts/mongo_tools.py:207 | `split` returns at least one part, no part holds the separator, and joining the parts with it gives the input back |
| `Text.SplitJoin` | scripts/mongo_tools.py:207 | splitting a join of separator-free parts gives the parts back |
| `Text.IndexOf` | scripts/mongo_tools.py:209 | the position found holds the character and no earlier position does |
| `Text.ParseShowInt` | scripts/mongo_tools.py:210 | `int(str(n)) == n` for every integer |
| `Text.LowerIdempotent` | accounts/mongo_users.py:65 | lower-casing an already lower-cased email changes nothing |
| `Documents.FirstMatch` | movies/mongo_access.py:84 | a lookup finds the first document that matches, and finds nothing only when no document matches |
| `Documents.RemoveAt` | movies/mongo_access.py:605 | deleting one document keeps the others in order |
| `Reviews.TruncateToInt` | movies/mongo_access.py:136 | `int(rating)` truncates toward zero |
| `Reviews.WriteReviewStoresOne` | movies/mongo_access.py:133-147 | after the write exactly one review has the (movie, user) key; it holds the new rating, title, body and update time and keeps its creation time unless it was inserted |
| `Reviews.WriteReview` | movies/mongo_access.py:133-147 | the upsert: a review with the (movie, user) key gets the new rating, title, body and update time and keeps its creation time, matched count 1 and modified count 0 exactly when nothing changed; without one, a review created and updated now is appended and reported as upserted |
| `Reviews.WriteReviewFramesOthers` | movies/mongo_access.py:133-147 | reviews with another key keep their position and content; only an insert adds a review |
| `Reviews.CountSumReplace` | movies/mongo_access.py:151-158 | replacing a review by one for the same movie keeps the movie's review count and moves its rating sum by exactly the new rating minus the old |
| `Reviews.SyncAggregate` | movies/mongo_access.py:151-164 | with reviews present, the first movie with the slug gets the mean and count of all its reviews and no other movie changes; with none, nothing is written |
| `Reviews.UpsertReview` | movies/mongo_access.py:126-164 | with no store nothing happens and nothing is reported; otherwise the review write is followed by the aggregate update of the movie for the slug, and the other collections are untouched |
| `Reviews.UpsertSyncsAggregate` | movies/mongo_access.py:126-164 | after an upsert the movie's average and count equal the mean and number of its reviews, other movies are unchanged, and the stored rating is the truncated one |
| `Reviews.UpsertPreservesSynced` | movies/mongo_access.py:126-164 | if every movie's aggregates agree with its reviews before an upsert, they all still agree after it |
| `Reviews.RewriteExisting` | movies/mongo_access.py:133-147 | writing over an existing review never inserts, keeps the movie's count and moves its sum by the rating difference; an unchanged payload at the same time changes nothing and reports no modification |
| `Reviews.WriteTwice` | movies/mongo_access.py:133-147 | a second identical write never inserts and leaves the movie's count and rating sum as the first left them; at the same time it changes nothing and reports no modification |
| `Reviews.SyncAggregateIdempotent` | movies/mongo_access.py:151-164 | recomputing aggregates a second time changes nothing |
| `Reviews.ResubmitIsIdempotent` | movies/mongo_access.py:133-164 | resubmitting the same review never inserts and leaves the movie's count and mean as the first submission left them; at the same time the store is unchanged and no modification is reported |
| `Reviews.InceptionScenario` | movies/mongo_access.py:151-164 | ratings 5 then 3 give average 4.0 over 2 reviews; changing the 5 to 1 gives 2.0 over 2 |
| `Reviews.UpsertReviewAsWritten` | movies/mongo_access.py:160-166 | as written, the failing relational update skips the movies sync: the review is written and every movie document stays as it was |
| `Reviews.AsWrittenLeavesAggregateStale` | movies/tests.py:17-23 | in the unit test's setting, as written the movie keeps count 0 beside one review; the corrected upsert gives count 1 and average 5.0 |
| `Watchlist.IsInWatchlist` | movies/mongo_access.py:236-244 | true exactly when the store is enabled and the pair has an entry |
| `Watchlist.AddToWatchlist` | movies/mongo_access.py:197-220 | adds exactly when the pair is absent, appending one favourite entry; otherwise the store is unchanged and the result is false |
| `Watchlist.RemoveFromWatchlist` | movies/mongo_access.py:223-233 | true exactly when the pair had an entry; then one entry is deleted |
| `Watchlist.AddKeepsUnique` | movies/mongo_access.py:205-217 | adding keeps at most one entry per pair, and afterwards the pair is on the list |
| `Watchlist.DuplicateAddRefused` | movies/mongo_access.py:207-209 | a second add of the same pair is refused and changes nothing |
| `Watchlist.RemoveClearsPair` | movies/mongo_access.py:229-230 | with unique entries, removing takes the pair off the list and keeps every other entry |
| `Watchlist.LogMovieView` | movies/mongo_access.py:260-288 | the result is true exactly when the store is enabled; only the view history changes |
| `Watchlist.LogViewCounts` | movies/mongo_access.py:268-284 | one record per pair survives; its count grows by one, its last view is now, its first view is set only on creation, and no other record changes |
| `Notifications.CreateNotification` | movies/mongo_access.py:304-324 | appends one unread notice with the given fields, exactly when the store is enabled |
| `Notifications.MarkMatching` | movies/mongo_access.py:347-351 | every targeted notice becomes read, every other notice is unchanged, and the modified count is zero exactly when all targeted notices were already read |
| `Notifications.MarkRead` | movies/mongo_access.py:341-354 | no result exactly when the store is disabled; otherwise only notifications change, every targeted notice becomes read, every other notice is unchanged, and the modified count is zero exactly when all targets were already read |
| `Notifications.MarkNotificationAsRead` | movies/mongo_access.py:341-354 | true exactly when some notice of the user for the movie was unread; every such notice is marked read and every other notice and collection is left as it was |
| `Notifications.MarkReadMonotoneAndIdempotent` | movies/mongo_access.py:347-351 | no notice becomes unread, and a second identical call changes nothing and reports no modification |
| `Notifications.Subscribers` | movies/mongo_access.py:372-377 | the recipients are exactly the non-empty usernames of the movie's watchlist entries |
| `Notifications.SubscribersDistinct` | movies/mongo_access.py:372-377 | with unique watchlist entries no user is notified twice |
| `Notifications.NotifyWatchlistOwnersLoop` | movies/mongo_access.py:357-392 | the loop over the entries builds the same notices and count as the declarative fan-out |
| `Notifications.NotifyWatchlistOwners` | movies/mongo_access.py:357-392 | nothing is created below 4.5 or without a store; otherwise one notice per recipient is appended after the existing ones, each an unread review notice of the movie addressed to a watchlist owner, and the count is the number of recipients |
| `Notifications.FanoutOnePerSubscriber` | movies/mongo_access.py:367-389 | below 4.5 nothing is created and 0 is returned; otherwise one unread new_review notice per subscriber is appended and their number is returned |
| `Notifications.SubscriberSet` | movies/mongo_access.py:372-377 | the set of recipients is the set of non-empty usernames on the movie's entries |
| `Notifications.CarolAndDaveScenario` | movies/mongo_access.py:357-392 | two watchers of a movie both get a notice for a 5-star review |
| `Notifications.PreviewMessage` | movies/mongo_access.py:494 | a text of at most 100 characters is kept; a longer one becomes its first 100 characters and "..."; the message never exceeds 103 characters |
| `Notifications.NotifyUserOnTicketResponse` | movies/mongo_access.py:485-504 | appends one unread support notice for the user, titled after the subject, with the preview message |
| `Tickets.CreateSupportTicket` | movies/mongo_access.py:397-416 | a new ticket is appended with the given user, email, subject and message, created now, open and without responses, and its id is its position; nothing happens when the store is disabled |
| `Tickets.RespondAppendsOne` | movies/mongo_access.py:456-463 | a response succeeds exactly when a ticket has the subject; the first such ticket gets exactly one more response and status in_progress, and no other ticket changes |
| `Tickets.AddTicketResponse` | movies/mongo_access.py:445-463 | true exactly when the store is enabled and a ticket has the subject; then the first such ticket gains one response and status in_progress and no other ticket changes; false means nothing changed |
| `Tickets.CloseSetsClosed` | movies/mongo_access.py:469-482 | close sets the first matching ticket to closed and succeeds only when it was not closed already |
| `Tickets.CloseSupportTicket` | movies/mongo_access.py:469-482 | true exactly when the first ticket with the subject exists and is not closed; then it is closed and no other ticket changes; false means nothing changed |
| `Tickets.CloseTwiceFails` | movies/mongo_access.py:475-479 | a second close fails and changes nothing |
| `Tickets.RespondShadowsDuplicates` | movies/mongo_access.py:456-460 | a later ticket with the same subject is never answered |
| `Catalog.CreateMovie` | movies/mongo_access.py:556-578 | a new movie is appended carrying the given title, slug, description, director, year, photo URL and creation time, the given cast or an empty one, and zero aggregates; nothing else changes |
| `Catalog.ApplyUpdate` | movies/mongo_access.py:587-591 | `$set` semantics field by field: every named field except the slug takes the given value and every unnamed field keeps its value; the slug never changes, so an update naming nothing but the slug leaves the movie as it was |
| `Catalog.UpdateMovie` | movies/mongo_access.py:581-596 | true exactly when the store is enabled, a movie has the slug and the update changes it (`modified_count > 0`); then the first movie with the slug becomes its updated form and every other movie, every slug and every other collection stay as they were; false means nothing changed |
| `Catalog.UpdateMovieTwice` | movies/mongo_access.py:581-596 | repeating an update changes nothing and returns false, since `$set` of the same values modifies no document |
| `Catalog.DeleteMovie` | movies/mongo_access.py:599-609 | true exactly when a movie has the slug; then the first movie with the slug is removed and the others keep their content and order |
| `Catalog.CreateMovieSynced` | movies/mongo_access.py:556-578 | starting from a store in sync, the store stays in sync after a creation exactly when no review for the new slug exists yet, since creation ignores the reviews |
| `Catalog.UpdateKeepsSynced` | movies/mongo_access.py:581-596 | an update that leaves the aggregates alone keeps every movie in sync |
| `Catalog.DeleteKeepsSynced` | movies/mongo_access.py:599-609 | deleting a movie keeps the remaining movies in sync |
| `Catalog.CreateAllowsDuplicateSlug` | movies/mongo_access.py:556-575 | creating a movie with a taken slug leaves two movies with that slug |
| `Catalog.DeleteRemovesMovie` | movies/mongo_access.py:605-606 | with unique slugs, no movie with the slug remains and all others do |
| `Users.UserExists` | accounts/mongo_users.py:39-46 | true exactly when a user has the lower-cased email |
| `Users.UsernameExists` | accounts/mongo_users.py:49-56 | true exactly when a user has the username |
| `Users.GetUserByEmail` | accounts/mongo_users.py:98-104 | finds a user exactly when one has the lower-cased email, and returns such a user |
| `Users.GetUserByUsername` | accounts/mongo_users.py:121-127 | finds a user exactly when one has the username, and returns such a user |
| `Users.CreateUser` | accounts/mongo_users.py:59-81 | raises when the store is unreachable; refuses and changes nothing when the email or the username is taken; otherwise appends an active user with the lower-cased email and the password's hash |
| `Users.AuthenticateUser` | accounts/mongo_users.py:84-95 | a returned user is active, has the lower-cased email and a hash the password verifies; nothing is returned when the store is unreachable |
| `Users.UpdateUser` | accounts/mongo_users.py:130-141 | false means nothing changed; true needs a user with the lower-cased email |
| `Users.DeleteUser` | accounts/mongo_users.py:144-151 | true exactly when a user has the lower-cased email; then the first such user is removed and the others keep their content and order |
| `Users.EmailLookupsIgnoreCase` | accounts/mongo_users.py:45 | lookups, deletion and authentication give the same answer for emails that lower-case alike |
| `Users.CreateKeepsRegistry` | accounts/mongo_users.py:65-80 | registration keeps emails lower-cased and emails and usernames unique |
| `Users.AuthenticateExactly` | accounts/mongo_users.py:90-95 | with unique emails, authentication succeeds exactly for an active user with the email whose hash the password verifies |
| `Users.CreateThenAuthenticate` | accounts/mongo_users.py:29-36 | after registering, logging in with the same password and the email in any case returns the new user |
| `Users.DeleteRemovesUser` | accounts/mongo_users.py:150-151 | after deleting, no user has the email and the registry stays unique |
| `Users.UnreachableStore` | accounts/mongo_users.py:41-63 | with no store, lookups say no, authentication fails and registration raises |
| `Sessions.Save` | mongodb_session/session.py:38-55 | with must_create, an existing key raises CreateError and changes nothing; otherwise the key holds exactly the new data and expiry |
| `Sessions.Exists` | mongodb_session/session.py:57-58 | true exactly when a record has the key |
| `Sessions.FirstFreshKey` | mongodb_session/session.py:28-36 | the key chosen is a candidate not in use; none is chosen only when every candidate is taken |
| `Sessions.Create` | mongodb_session/session.py:28-36 | the loop ends with the first candidate not in use, absent before and holding the new record after |
| `Sessions.Load` | mongodb_session/session.py:15-26 | a record expiring strictly after now gives its data; otherwise an empty session is stored under a fresh key, and when no key is free the table is untouched |
| `Sessions.Delete` | mongodb_session/session.py:60-62 | removes exactly the given key, or the current key when none is given, and nothing else |
| `Sessions.ClearExpired` | mongodb_session/session.py:64-68 | removes exactly the records expiring before now and keeps the rest unchanged |
| `Sessions.ClearKeepsLive` | mongodb_session/session.py:23-68 | clearing keeps every record load accepts; a dead record survives only when it expires exactly now or has no expiry |
| `Sessions.ExpiresNowBoundary` | mongodb_session/session.py:23-68 | a record expiring exactly now survives clearing, yet load treats it as expired |
| `Sessions.LoadKeyExists` | mongodb_session/session.py:15-36 | the key load leaves behind names a record |
| `Sessions.SaveThenLoad` | mongodb_session/session.py:15-55 | saving then loading before the expiry returns the saved data |
| `QueryTools.Get` | scripts/mongo_tools.py:137 | `dict.get`: the value of the first field with the key, `Null` when no field has it, and a non-null value always comes from a field with the key |
| `QueryTools.HasKey` | scripts/mongo_tools.py:187 | true exactly when a field has the key |
| `QueryTools.NonBlank` | scripts/mongo_tools.py:207 | the kept parts are non-empty stripped parts of the input, no more of them than parts |
| `QueryTools.NonBlankAppend` | scripts/mongo_tools.py:207 | the comprehension works part by part: the parts of a concatenation are kept in order, those of the first list before those of the second |
| `QueryTools.NonBlankOne` | scripts/mongo_tools.py:207 | one part becomes its stripped text when that is non-empty and disappears otherwise; with `NonBlankAppend` this fixes the result of every list |
| `QueryTools.NonBlankKeeps` | scripts/mongo_tools.py:207 | no non-blank part is dropped |
| `QueryTools.ParsePart` | scripts/mongo_tools.py:208-212 | a part without a colon gives the part with direction 1; with a colon the key is the stripped text before the first colon; only a colon part can fail |
| `QueryTools.ParsePartAtFirstColon` | scripts/mongo_tools.py:208-210 | a colon part succeeds exactly when the stripped text after the first colon is an integer, which becomes the direction |
| `QueryTools.ParseParts` | scripts/mongo_tools.py:207-213 | parsing succeeds exactly when every part parses, keeps their order and number, and otherwise reports the error of a failing part |
| `QueryTools.ParseKeysArg` | scripts/mongo_tools.py:204-213 | the argument is accepted exactly when every non-blank part parses, so one bad direction rejects it all; on success there is one key per non-blank part, and key `k` is what the `k`-th non-blank part parses to |
| `QueryTools.ParseKeysArgExample` | scripts/mongo_tools.py:205-213 | `"a, ,b:-1"` gives `a` ascending and `b` descending, the blank part skipped |
| `QueryTools.ParseFormatKeys` | scripts/mongo_tools.py:204-213 | formatting plain keys as `field:direction` with commas and parsing the result gives the keys back |
| `QueryTools.BlankInputGivesNoKeys` | scripts/mongo_tools.py:207 | an input of only commas and spaces gives no keys |
| `QueryTools.SuggestIndex` | scripts/mongo_tools.py:168-189 | every suggested key is ascending, none starts with `$`, and there are no more keys than filter entries |
| `QueryTools.SuggestIndexAppend` | scripts/mongo_tools.py:178-188 | the suggestion for a concatenation is the concatenation of the suggestions, so keys follow filter order |
| `QueryTools.SuggestIndexOne` | scripts/mongo_tools.py:180-188 | a single entry yields its key exactly when it is a non-operator scalar or a dict with an indexable operator |
| `QueryTools.SuggestIndexMembers` | scripts/mongo_tools.py:178-189 | a key is suggested exactly when some indexable entry has that name |
| `QueryTools.CollscanIffReachable` | scripts/mongo_tools.py:133-146 | the scan search is true exactly when the plan, or a dict reachable through dict values and dict elements of lists, has stage COLLSCAN |
| `QueryTools.ScansHasPath` | scripts/mongo_tools.py:133-146 | a plan the search flags has a path to a COLLSCAN stage |
| `QueryTools.PathScans` | scripts/mongo_tools.py:133-146 | a plan with a path to a COLLSCAN stage is flagged by the search |
| `QueryTools.Or` | scripts/mongo_tools.py:123 | `a or b` is `a` when `a` is truthy and `b` otherwise |
| `QueryTools.ExecTimeSource` | scripts/mongo_tools.py:122-130 | a non-empty executionStats dict supplies the time; a truthy executionStats that is not a dict gives None; a plan with neither executionStats nor stages gives None |
| `QueryTools.AnalyzeQuery` | scripts/mongo_tools.py:113-165 | the analysis fails exactly when the time is present but not a number; otherwise it reports the plan, the time and the scan flag |
| `QueryTools.RecommendShape` | scripts/mongo_tools.py:149-162 | for any scan and slowness verdicts the list holds one scan recommendation exactly when there is a scan, placed first and chosen by the filter, and a slow-query warning exactly when slow |
| `QueryTools.RecommendationRules` | scripts/mongo_tools.py:149-162 | exactly one scan recommendation appears when the plan scans (an index suggestion, a generic one or a no-filter one, by the filter) and none otherwise; the slow-query one appears exactly when the time is present and above the threshold |
| `Views.EndpointUser` | movies/views.py:234-241 | an endpoint has no user exactly when the request is anonymous and the session has no username |
| `Views.LookupMovie` | movies/mongo_access.py:81-100 | a movie is found exactly when the store is enabled and a movie has the slug |
| `Views.LookupMovieAsWritten` | movies/mongo_access.py:87-99 | as written, a slug not in the movies collection makes the relational fallback raise instead of giving None |
| `Views.UnknownSlugRaises` | movies/views.py:243-245 | for an unknown slug the lookup as written raises, while the corrected one gives the 404 of the favourite toggle |
| `Views.IsAdminExactly` | movies/views.py:40-59 | with unique usernames, the acting user is an admin exactly when a user with that name has the admin flag |
| `Views.IsAdmin` | movies/views.py:40-59 | admin only with a store and a truthy acting username that some user document with the admin flag carries |
| `Views.ToggleFavorite` | movies/views.py:229-273 | only the watchlist can change, and every reply other than 200 leaves the store unchanged |
| `Views.ToggleRejections` | movies/views.py:231-245 | other methods get 405, no user 401 and an unknown movie 404, with no change |
| `Views.ToggleFlips` | movies/views.py:250-273 | for a known movie the toggle reports removed exactly when the pair was listed and added otherwise, flips membership and keeps entries unique |
| `Views.LogPageView` | movies/views.py:94-103 | logging the page view changes only the view history |
| `Views.StoreReview` | movies/views.py:136-146 | storing a review never touches watchlists or tickets |
| `Views.SubmitReview` | movies/views.py:126-158 | a review POST leaves watchlists and tickets alone, and an unknown movie changes nothing |
| `Views.ReviewNeedsSession` | movies/views.py:128-131 | without a session username no review, movie or notification is written |
| `Views.AnonymousPostChangesNothing` | movies/tests.py:25-30 | an anonymous POST for a known movie is sent to log in and the store is unchanged |
| `Views.StoreReviewStores` | movies/views.py:136-137 | the upsert stores the cleaned review and brings the movie's aggregates up to date |
| `Views.ReviewSavedStores` | movies/views.py:132-137 | a valid POST stores the cleaned review under the session user and syncs the movie |
| `Views.ReviewSavedNotifies` | movies/views.py:139-146 | a valid POST appends notifications only for a rating of 5, one per subscriber of the movie |
| `Views.MarkReadView` | movies/views.py:329-369 | only notifications can change, and every reply other than done or nothing-changed leaves them as they were |
| `Views.MarkReadBranch` | movies/views.py:346-366 | a non-empty slug targets the user's movie notices, an empty one the support notices of the subject; targeted notices become read, others are unchanged, and the reply is ok exactly when one was unread |
| `Views.MarkReadRejections` | movies/views.py:331-344 | other methods get 405, no user 401 and a disabled store 500, with no change |
| `Views.RespondToTicket` | movies/views.py:504-519 | only tickets and notifications change, and a failed response changes nothing |
| `Views.RespondToTicketEffects` | movies/views.py:504-519 | a response succeeds exactly when a ticket has the subject; then the ticket gets it and exactly one support notice goes to its submitter |
| `Views.ManageTickets` | movies/views.py:489-533 | a denial, a failure or no action leaves the store unchanged |
| `Views.NonAdminDenied` | movies/views.py:491-493 | a non-admin is turned away with no change |
| `Views.RespondThenNotify` | movies/views.py:502-521 | blank input does nothing; the response counts as made exactly when a ticket has the stripped subject; otherwise nothing changes |
| `Views.CloseAction` | movies/views.py:523-529 | closing succeeds exactly when the first ticket with the stripped subject exists and was not closed, and then sets it closed |

## Left out

- Connection and client management (`get_db`, `get_user_db`, the pymongo clients): the store is the `Db` / `UserStore` value and a flag for "no store".
- Write failures inside an enabled store: the source catches them and returns False; here every write succeeds.
- The relational fallback branches of the movie and review helpers: the `Movie`/`Review` models have no slug or aggregate fields. A lookup they would serve is "not found" here (see Findings).
- Movie listing, search, paging and sorting (`get_movies`, `get_reviews_for_movie`, the list pages): they depend on Mongo query and regex semantics.
- `send_broadcast_notification` and `get_broadcast_notifications`: outside the modelled core.
- HTTP rendering, messages, redirects, AJAX/JSON bodies, and the GET branch of the movie page: each handler is reduced to the outcome it picks.
- PBKDF2 (`hashlib`): the hash is an arbitrary deterministic function.
- Session encode/decode, timezone normalisation and `get_expiry_date`: data is kept decoded and the expiry is passed in.
- Clocks and randomness: times are parameters; session keys come from a finite candidate sequence.
- Concurrency: every operation runs alone; the find-then-insert race of the watchlist add is not modelled.
- `explain_query`, `index_stats`, `main` of the query tool: they talk to the server; the plan is an input.
- IEEE floats: averages and ratings are reals; NaN and infinities in plans are not represented.
- `Sessions.Create`: when every candidate key is taken the model returns no key, where the source keeps drawing new random keys forever.
- `Sessions.Delete`: deleting with no key at all leaves the table unchanged; the source would remove a document stored under a null key, which the table cannot hold.
- `QueryTools.ParsePart`: its contract does not name the error's text; the direction's parse is stated in `QueryTools.ParsePartAtFirstColon`.
- `Catalog.ApplyUpdate`: the keyword arguments are the movie record's own fields; an unknown keyword, which Mongo's `$set` would add to the document as a new field, cannot be expressed.
- `Users.UpdateUser`: its contract does not state the field updates, only that "false" means no change; an `email` argument is stored as given, without lower-casing, so the registry invariant is not preserved by it.
- `Text.Strip`, `Text.Lower`: whitespace and case mapping cover the ASCII and Latin-1 range only.
- `Text.ParseInt`: reads ASCII digits `0`-`9` only, where Python's `int()` also accepts every other Unicode decimal digit (Arabic-Indic, full-width and so on).
- `get_user_by_id`: ObjectId parsing is not modelled.

## Findings

| source | as written | input that shows it | evidently intended | confidence | as-written member | corrected member |
|---|---|---|---|---|---|---|
| movies/mongo_access.py:160-166 | the relational `Movie` model has no `slug` field, so `Movie.objects.filter(slug=...)` raises FieldError; the `except` at line 167 swallows it and the `$set` of `avg_rating`/`review_count` on the movies collection is never reached | the unit test of movies/tests.py:17-23: movie `t1` with no reviews, one review rated 5; the movie keeps `review_count` 0 | the movie document holds the mean and count of its reviews after every upsert | high; not executed | `Reviews.UpsertReviewAsWritten`, `Reviews.AsWrittenLeavesAggregateStale` | `Reviews.UpsertReview`, `Reviews.UpsertSyncsAggregate` |
| movies/mongo_access.py:87-99 | when the movies collection has no document for the slug, the fallback `Movie.objects.get(slug=...)` raises FieldError, which the `Movie.DoesNotExist` handler does not catch | `toggle_favorite` POSTed for a slug no movie has | the lookup returns None, so the views answer 404 | high; not executed | `Views.LookupMovieAsWritten`, `Views.UnknownSlugRaises` | `Views.LookupMovie`, `Views.ToggleRejections` |

=== FILE: base.dfy ===
/** Failure-carrying wrappers shared by every module of the model. */
module Base {

  /** A value that may be absent: Python's `None` versus a present value. */
  datatype Option<+T> = None | Some(value: T)

  /** The outcome of an operation that either yields a value or raises. */
  datatype Result<+T, +E> = Ok(value: T) | Err(error: E)

  /** Python truthiness of an optional string: `None` and `''` are both false. */
  predicate Truthy(s: Option<string>) {
    s.Some? && s.value != ""
  }

  /** A `$set` of one field: the given value, or the current one when the field is not named. */
  function Pick<T>(o: Option<T>, current: T): (r: T)
    ensures o.None? ==> r == current
    ensures o.Some? ==> r == o.value
  {
    if o.Some? then o.value else current
  }
}

=== FILE: catalog.dfy ===
/**
  Movie management for administrators (movies/mongo_access.py): create, update
  and delete a movie document.
 */
module Catalog {
  import opened Base
  import opened Documents
  import opened Reviews

  /** `create_movie`: appends a movie whose aggregates start at zero; no slug check. */
  function CreateMovie(db: Db, title: string, slug: string, description: string, director: string,
                       year: int, cast: Option<seq<string>>, photoUrl: Option<string>, now: Time): (r: (Db, bool))
    ensures r.1 <==> db.enabled
    ensures !r.1 ==> r.0 == db
    ensures r.0 == db.(movies := r.0.movies)
    ensures r.1 ==>
      && |r.0.movies| == |db.movies| + 1 && r.0.movies[..|db.movies|] == db.movies
      && var m := r.0.movies[|db.movies|];
      && m.slug == slug && m.title == title && m.avgRating == 0.0 && m.reviewCount == 0
      && m.cast == (if cast.Some? then cast.value else [])
      && m.description == description && m.director == director && m.year == year
      && m.photoUrl == photoUrl && m.createdAt == now
  {
    if !db.enabled then (db, false)
    else
      var m := Movie(title, slug, description, director, year,
                     if cast.Some? then cast.value else [], photoUrl, 0.0, 0, now);
      (db.(movies := db.movies + [m]), true)
  }

  /** The keyword arguments of `update_movie`; a `slug` argument is accepted and ignored. */
  datatype MovieUpdate = MovieUpdate(
    title: Option<string>,
    slug: Option<string>,
    description: Option<string>,
    director: Option<string>,
    year: Option<int>,
    cast: Option<seq<string>>,
    photoUrl: Option<Option<string>>,
    avgRating: Option<real>,
    reviewCount: Option<int>,
    createdAt: Option<Time>)

  /** `$set` of every given field except the slug. */
  function ApplyUpdate(m: Movie, u: MovieUpdate): (r: Movie)
    ensures r.slug == m.slug
    ensures u == MovieUpdate(None, u.slug, None, None, None, None, None, None, None, None) ==> r == m
    ensures (u.title.Some? ==> r.title == u.title.value) && (u.title.None? ==> r.title == m.title)
    ensures (u.description.Some? ==> r.description == u.description.value) && (u.description.None? ==> r.description == m.description)
    ensures (u.director.Some? ==> r.director == u.director.value) && (u.director.None? ==> r.director == m.director)
    ensures (u.year.Some? ==> r.year == u.year.value) && (u.year.None? ==> r.year == m.year)
    ensures (u.cast.Some? ==> r.cast == u.cast.value) && (u.cast.None? ==> r.cast == m.cast)
    ensures (u.photoUrl.Some? ==> r.photoUrl == u.photoUrl.value) && (u.photoUrl.None? ==> r.photoUrl == m.photoUrl)
    ensures (u.avgRating.Some? ==> r.avgRating == u.avgRating.value) && (u.avgRating.None? ==> r.avgRating == m.avgRating)
    ensures (u.reviewCount.Some? ==> r.reviewCount == u.reviewCount.value) && (u.reviewCount.None? ==> r.reviewCount == m.reviewCount)
    ensures (u.createdAt.Some? ==> r.createdAt == u.createdAt.value) && (u.createdAt.None? ==> r.createdAt == m.createdAt)
  {
    m.(title := Pick(u.title, m.title),
       description := Pick(u.description, m.description),
       director := Pick(u.director, m.director),
       year := Pick(u.year, m.year),
       cast := Pick(u.cast, m.cast),
       photoUrl := Pick(u.photoUrl, m.photoUrl),
       avgRating := Pick(u.avgRating, m.avgRating),
       reviewCount := Pick(u.reviewCount, m.reviewCount),
       createdAt := Pick(u.createdAt, m.createdAt))
  }

  /** `update_movie`: updates the first movie with the slug; true iff it changed. */
  function UpdateMovie(db: Db, slug: string, u: MovieUpdate): (r: (Db, bool))
    ensures r.0 == db.(movies := r.0.movies)
    ensures |r.0.movies| == |db.movies|
    ensures !r.1 ==> r.0 == db
    ensures forall k :: 0 <= k < |db.movies| ==> r.0.movies[k].slug == db.movies[k].slug
    ensures r.1 <==> && db.enabled && FindMovie(db.movies, slug).Some?
                     && var j := FindMovie(db.movies, slug).value;
                        ApplyUpdate(db.movies[j], u) != db.movies[j]
    ensures r.1 ==> var j := FindMovie(db.movies, slug).value;
      && r.0.movies[j] == ApplyUpdate(db.movies[j], u)
      && forall k :: 0 <= k < |db.movies| && k != j ==> r.0.movies[k] == db.movies[k]
  {
    if !db.enabled then (db, false)
    else
      match FindMovie(db.movies, slug)
      case None => (db, false)
      case Some(j) =>
        var m' := ApplyUpdate(db.movies[j], u);
        if m' == db.movies[j] then (db, false) else (db.(movies := db.movies[j := m']), true)
  }

  /** `delete_movie`: deletes the first movie with the slug; true iff one was deleted. */
  function DeleteMovie(db: Db, slug: string): (r: (Db, bool))
    ensures r.1 <==> db.enabled && FindMovie(db.movies, slug).Some?
    ensures r.0 == db.(movies := r.0.movies)
    ensures !r.1 ==> r.0 == db
    ensures r.1 ==> |r.0.movies| == |db.movies| - 1
    ensures r.1 ==> var j := FindMovie(db.movies, slug).value;
      forall k :: 0 <= k < |r.0.movies| ==> r.0.movies[k] == db.movies[if k < j then k else k + 1]
  {
    if !db.enabled then (db, false)
    else
      match FindMovie(db.movies, slug)
      case None => (db, false)
      case Some(j) => (db.(movies := RemoveAt(db.movies, j)), true)
  }

  /** A new movie is in sync with its reviews only when none exist yet for its slug:
      `create_movie` does not look at the reviews collection. */
  lemma CreateMovieSynced(db: Db, title: string, slug: string, description: string, director: string,
                          year: int, cast: Option<seq<string>>, photoUrl: Option<string>, now: Time)
    requires Synced(db) && db.enabled
    ensures Synced(CreateMovie(db, title, slug, description, director, year, cast, photoUrl, now).0)
            <==> CountFor(db.reviews, slug) == 0
  {
    var after := CreateMovie(db, title, slug, description, director, year, cast, photoUrl, now).0;
    assert after.movies[|db.movies|].slug == slug;
  }

  /** An update that leaves the aggregate fields alone keeps the movies in sync. */
  lemma UpdateKeepsSynced(db: Db, slug: string, u: MovieUpdate)
    requires Synced(db) && u.avgRating.None? && u.reviewCount.None?
    ensures Synced(UpdateMovie(db, slug, u).0)
  {
  }

  /** Repeating an update finds the movie already in its updated form: the second
      call reports no modification and changes nothing. */
  lemma UpdateMovieTwice(db: Db, slug: string, u: MovieUpdate)
    ensures var once := UpdateMovie(db, slug, u).0;
      UpdateMovie(once, slug, u) == (once, false)
  {
    var once := UpdateMovie(db, slug, u).0;
    if db.enabled && FindMovie(db.movies, slug).Some? {
      var j := FindMovie(db.movies, slug).value;
      assert FindMovie(once.movies, slug) == Some(j) by {
        assert forall k :: 0 <= k < |db.movies| ==> (once.movies[k].slug == slug <==> db.movies[k].slug == slug);
      }
      assert ApplyUpdate(ApplyUpdate(db.movies[j], u), u) == ApplyUpdate(db.movies[j], u);
    }
  }

  /** Deleting a movie leaves every other movie in sync. */
  lemma DeleteKeepsSynced(db: Db, slug: string)
    requires Synced(db)
    ensures Synced(DeleteMovie(db, slug).0)
  {
  }

  /** `create_movie` checks nothing about the slug: creating a movie whose slug is
      taken leaves two movies with that slug. */
  lemma CreateAllowsDuplicateSlug(db: Db, title: string, slug: string, description: string, director: string,
                                  year: int, cast: Option<seq<string>>, photoUrl: Option<string>, now: Time)
    requires db.enabled && FindMovie(db.movies, slug).Some?
    ensures !UniqueSlugs(CreateMovie(db, title, slug, description, director, year, cast, photoUrl, now).0.movies)
  {
    var after := CreateMovie(db, title, slug, description, director, year, cast, photoUrl, now).0.movies;
    var j := FindMovie(db.movies, slug).value;
    assert after[j].slug == after[|db.movies|].slug;
  }

  /** With unique slugs, deleting a movie leaves none with that slug and keeps the
      other movies in order. */
  lemma DeleteRemovesMovie(db: Db, slug: string)
    requires UniqueSlugs(db.movies)
    ensures var after := DeleteMovie(db, slug).0.movies;
      && (db.enabled ==> forall k :: 0 <= k < |after| ==> after[k].slug != slug)
      && forall k :: 0 <= k < |db.movies| && db.movies[k].slug != slug ==> db.movies[k] in after
  {
    var r := DeleteMovie(db, slug);
    if r.1 {
      var j := FindMovie(db.movies, slug).value;
      forall k | 0 <= k < |r.0.movies|
        ensures r.0.movies[k].slug != slug
      {
        if k >= j {
          assert r.0.movies[k] == db.movies[k + 1];
        }
      }
      forall k | 0 <= k < |db.movies| && db.movies[k].slug != slug
        ensures db.movies[k] in r.0.movies
      {
        if k < j { assert r.0.movies[k] == db.movies[k]; } else { assert r.0.movies[k - 1] == db.movies[k]; }
      }
    }
  }
}

=== FILE: documents.dfy ===
/**
  The document store as an immutable value. Each Mongo collection is a sequence
  of records in natural (insertion) order, so `find_one`, `update_one` and
  `delete_one` act on the first record that matches their filter.
 */
module Documents {
  import opened Base

  /** An abstract clock reading (`timezone.now().isoformat()` in the source). */
  type Time = int

  datatype Movie = Movie(
    title: string,
    slug: string,
    description: string,
    director: string,
    year: int,
    cast: seq<string>,
    photoUrl: Option<string>,
    avgRating: real,
    reviewCount: int,
    createdAt: Time)

  /** One review; the pair (movieSlug, user) is its key. */
  datatype Review = Review(
    movieSlug: string,
    user: string,
    rating: int,
    title: string,
    body: string,
    createdAt: Time,
    updatedAt: Time)

  /** A watchlist entry; the pair (username, movieSlug) is its key. */
  datatype WatchEntry = WatchEntry(
    username: string,
    movieSlug: string,
    movieTitle: string,
    addedAt: Time,
    isFavorite: bool)

  /** The view-history record of one user for one movie. */
  datatype ViewRecord = ViewRecord(
    username: string,
    movieSlug: string,
    movieTitle: string,
    firstViewedAt: Time,
    lastViewedAt: Time,
    viewCount: int)

  /** The two document shapes of the `notifications` collection: the one
      `create_notification` writes and the one a ticket response writes. */
  datatype Notification =
    | ReviewNotice(
        username: string,
        movieSlug: string,
        movieTitle: string,
        reviewRating: real,
        reviewTitle: string,
        kind: string,
        createdAt: Time,
        isRead: bool)
    | SupportNotice(
        username: string,
        title: string,
        message: string,
        ticketSubject: string,
        createdAt: Time,
        isRead: bool)

  datatype TicketStatus = Open | InProgress | Resolved | Closed

  datatype TicketResponse = TicketResponse(adminUsername: string, text: string, respondedAt: Time)

  datatype Ticket = Ticket(
    username: string,
    email: string,
    subject: string,
    message: string,
    createdAt: Time,
    status: TicketStatus,
    responses: seq<TicketResponse>)

  /** The application database. `enabled` is false when `get_db()` returns None
      (the `USE_MONGODB` switch is off). */
  datatype Db = Db(
    enabled: bool,
    movies: seq<Movie>,
    reviews: seq<Review>,
    watchlists: seq<WatchEntry>,
    views: seq<ViewRecord>,
    notifications: seq<Notification>,
    tickets: seq<Ticket>)

  /** Position of the first record satisfying `p`: what `find_one` and the
      single-document writes select. */
  function FirstMatch<T>(s: seq<T>, p: T -> bool): (r: Option<nat>)
    ensures r.None? <==> forall i :: 0 <= i < |s| ==> !p(s[i])
    ensures r.Some? ==> r.value < |s| && p(s[r.value])
    ensures r.Some? ==> forall i :: 0 <= i < r.value ==> !p(s[i])
  {
    if |s| == 0 then None
    else if p(s[0]) then Some(0)
    else
      match FirstMatch(s[1..], p)
      case None => None
      case Some(i) => Some(i + 1)
  }

  /** `s` without its `i`-th record, as `delete_one` leaves a collection. */
  function RemoveAt<T>(s: seq<T>, i: nat): (r: seq<T>)
    requires i < |s|
    ensures |r| == |s| - 1
    ensures forall j :: 0 <= j < i ==> r[j] == s[j]
    ensures forall j :: i <= j < |r| ==> r[j] == s[j + 1]
  {
    s[..i] + s[i + 1..]
  }

  /** Two collections that agree record by record on `p` have the same first match. */
  lemma {:induction false} FirstMatchAgrees<T>(a: seq<T>, b: seq<T>, p: T -> bool)
    requires |a| == |b|
    requires forall i :: 0 <= i < |a| ==> p(a[i]) == p(b[i])
    ensures FirstMatch(a, p) == FirstMatch(b, p)
    decreases |a|
  {
    if |a| > 0 && !p(a[0]) {
      FirstMatchAgrees(a[1..], b[1..], p);
    }
  }

  /** The movie `get_movie_by_slug` returns from the store. */
  function FindMovie(movies: seq<Movie>, slug: string): Option<nat> {
    FirstMatch(movies, (m: Movie) => m.slug == slug)
  }

  /** No two movies share a slug. */
  predicate UniqueSlugs(movies: seq<Movie>) {
    forall i, j :: 0 <= i < j < |movies| ==> movies[i].slug != movies[j].slug
  }
}

=== FILE: forms.dfy ===
/**
  The review form of movies/forms.py: a rating chosen from 1..5, an optional
  title of at most 255 characters and an optional free-text body.
 */
module ReviewForms {
  import opened Base
  import opened Text

  /** `RATING_CHOICES`: the integers 1 through 5. */
  const RatingChoices: seq<int> := [1, 2, 3, 4, 5]

  /** The submitted values a choice field accepts: `str(c)` for each choice. */
  const ChoiceLabels: seq<string> := ["1", "2", "3", "4", "5"]

  const TitleMaxLength: nat := 255

  datatype FormError =
    | InvalidChoice
    | RatingOutOfRange
    | TitleTooLong
    | NullCharacter(field: string)

  /** Raw form input, as posted. */
  datatype RawReview = RawReview(rating: string, title: string, body: string)

  /** `form.cleaned_data` of a valid form. */
  datatype CleanReview = CleanReview(rating: int, title: string, body: string)

  lemma RatingChoicesAreOneToFive(n: int)
    ensures n in RatingChoices <==> 1 <= n <= 5
  {
  }

  /** `clean_rating`: in-range ratings pass unchanged, the rest raise a ValidationError. */
  function CleanRating(rating: int): (r: Result<int, FormError>)
    ensures r.Ok? <==> 1 <= rating <= 5
    ensures r.Ok? ==> r.value == rating
    ensures r.Err? ==> r.error == RatingOutOfRange
  {
    if rating < 1 || rating > 5 then Err(RatingOutOfRange) else Ok(rating)
  }

  /** The cleaned value of an optional `CharField`: stripped, with its validators' errors. */
  function CleanText(raw: string, field: string, maxLength: Option<nat>): (r: Result<string, FormError>)
    ensures r.Ok? <==>
      && '\0' !in Strip(raw)
      && (maxLength.Some? ==> |Strip(raw)| <= maxLength.value)
    ensures r.Ok? ==> r.value == Strip(raw)
  {
    var v := Strip(raw);
    if maxLength.Some? && |v| > maxLength.value then Err(TitleTooLong)
    else if '\0' in v then Err(NullCharacter(field))
    else Ok(v)
  }

  /** `int(label)` of each accepted label is the choice at the same position. */
  lemma ChoiceLabelsParse(i: nat)
    requires i < |ChoiceLabels|
    ensures ParseInt(ChoiceLabels[i]) == Some(RatingChoices[i])
  {
    assert ChoiceLabels[i] == ShowInt(RatingChoices[i]);
    ParseShowInt(RatingChoices[i]);
  }

  /** `int(label)` of an accepted label. */
  function ChoiceValue(raw: string): (n: int)
    requires raw in ChoiceLabels
    ensures n in RatingChoices && ShowInt(n) == raw
  {
    if raw == "1" then 1 else if raw == "2" then 2 else if raw == "3" then 3
    else if raw == "4" then 4 else 5
  }

  /** The rating field: a choice among the labels, then `clean_rating` on its integer. */
  function CleanRatingField(raw: string): (r: Result<int, FormError>)
    ensures r.Ok? <==> raw in ChoiceLabels
    ensures r.Ok? ==> r.value in RatingChoices && ShowInt(r.value) == raw
  {
    if raw !in ChoiceLabels then Err(InvalidChoice)
    else
      CleanRating(ChoiceValue(raw))
  }

  /** `ReviewForm.is_valid()` with its `cleaned_data`; every field error is reported. */
  function ValidateReview(raw: RawReview): (r: Result<CleanReview, set<FormError>>)
    ensures r.Ok? <==>
      && raw.rating in ChoiceLabels
      && |Strip(raw.title)| <= TitleMaxLength
      && '\0' !in Strip(raw.title)
      && '\0' !in Strip(raw.body)
    ensures r.Ok? ==>
      && 1 <= r.value.rating <= 5
      && ShowInt(r.value.rating) == raw.rating
      && r.value.title == Strip(raw.title)
      && |r.value.title| <= TitleMaxLength
      && r.value.body == Strip(raw.body)
    ensures r.Err? ==> r.error != {}
  {
    var rating := CleanRatingField(raw.rating);
    var title := CleanText(raw.title, "title", Some(TitleMaxLength));
    var body := CleanText(raw.body, "body", None);
    if rating.Ok? && title.Ok? && body.Ok? then
      Ok(CleanReview(rating.value, title.value, body.value))
    else
      Err((if rating.Err? then {rating.error} else {})
          + (if title.Err? then {title.error} else {})
          + (if body.Err? then {body.error} else {}))
  }

  /** Of the valid ratings, only 5 reaches the 4.5 notification threshold. */
  lemma OnlyFiveReachesThreshold(raw: RawReview)
    requires ValidateReview(raw).Ok?
    ensures (ValidateReview(raw).value.rating as real >= 4.5) <==> ValidateReview(raw).value.rating == 5
  {
  }
}

=== FILE: notifications.dfy ===
/**
  Notifications (movies/mongo_access.py): creation, the bulk read-flag flip, the
  high-rating fan-out to watchlist owners, and the support-response notice.
 */
module Notifications {
  import opened Base
  import opened Documents
  import opened Watchlist

  /** The notification-type tag `check_and_notify_watchlist_owners` uses. */
  const NewReviewKind: string := "new_review"

  /** Reviews rated below this create no notifications. */
  const NotifyThreshold: real := 4.5

  /** Longest admin text copied verbatim into a support notice. */
  const PreviewLength: nat := 100

  /** `create_notification`: appends one unread notice; true iff the store is enabled. */
  function CreateNotification(db: Db, username: string, slug: string, title: string, rating: real,
                              reviewTitle: string, kind: string, now: Time): (r: (Db, bool))
    ensures r.1 <==> db.enabled
    ensures !r.1 ==> r.0 == db
    ensures r.1 ==> r.0 == db.(notifications := db.notifications +
                                 [ReviewNotice(username, slug, title, rating, reviewTitle, kind, now, false)])
  {
    if !db.enabled then (db, false)
    else (db.(notifications := db.notifications + [ReviewNotice(username, slug, title, rating, reviewTitle, kind, now, false)]), true)
  }

  // ---------------------------------------------------------------------------
  // Marking read

  /** Which notifications a mark-read call targets: the movie notices of a movie,
      or the support notices of a ticket subject. A filter on a field a document
      lacks never matches it. */
  datatype ReadKey = ByMovie(slug: string) | BySubject(subject: string)

  predicate Targets(n: Notification, username: string, key: ReadKey) {
    && n.username == username
    && match key
       case ByMovie(s) => n.ReviewNotice? && n.movieSlug == s
       case BySubject(t) => n.SupportNotice? && n.ticketSubject == t
  }

  /** Number of positions at which two equally long collections differ: what
      Mongo reports as `modified_count`. */
  function Changed(a: seq<Notification>, b: seq<Notification>): nat
    requires |a| == |b|
  {
    if |a| == 0 then 0 else (if a[0] != b[0] then 1 else 0) + Changed(a[1..], b[1..])
  }

  /** A notification after `$set: {is_read: True}`. */
  function MarkedRead(n: Notification): Notification {
    n.(isRead := true)
  }

  /** `update_many(filter, {'$set': {'is_read': True}})` with its modified count. */
  function MarkMatching(ns: seq<Notification>, username: string, key: ReadKey): (r: (seq<Notification>, nat))
    ensures |r.0| == |ns|
    ensures forall i :: 0 <= i < |ns| ==> Targets(ns[i], username, key) ==> r.0[i].isRead
    ensures forall i :: 0 <= i < |ns| ==> Targets(ns[i], username, key) ==> r.0[i] == MarkedRead(ns[i])
    ensures forall i :: 0 <= i < |ns| ==> !Targets(ns[i], username, key) ==> r.0[i] == ns[i]
    ensures r.1 == Changed(ns, r.0)
    ensures r.1 == 0 <==> forall i :: 0 <= i < |ns| && Targets(ns[i], username, key) ==> ns[i].isRead
  {
    if |ns| == 0 then ([], 0)
    else
      var rest := MarkMatching(ns[1..], username, key);
      var head := if Targets(ns[0], username, key) then MarkedRead(ns[0]) else ns[0];
      var all := [head] + rest.0;
      assert all[1..] == rest.0;
      (all, (if head != ns[0] then 1 else 0) + rest.1)
  }

  /** The update of a mark-read call: `None` when the store is disabled, otherwise
      the new store and the modified count. */
  function MarkRead(db: Db, username: string, key: ReadKey): (r: Option<(Db, nat)>)
    ensures r.None? <==> !db.enabled
    ensures r.Some? ==> r.value.0 == db.(notifications := r.value.0.notifications)
    ensures r.Some? ==> var ns := db.notifications;
      && |r.value.0.notifications| == |ns|
      && (forall i :: 0 <= i < |ns| ==> Targets(ns[i], username, key) ==> r.value.0.notifications[i] == MarkedRead(ns[i]))
      && (forall i :: 0 <= i < |ns| ==> !Targets(ns[i], username, key) ==> r.value.0.notifications[i] == ns[i])
      && (r.value.1 == 0 <==> forall i :: 0 <= i < |ns| && Targets(ns[i], username, key) ==> ns[i].isRead)
  {
    if !db.enabled then None
    else
      var m := MarkMatching(db.notifications, username, key);
      Some((db.(notifications := m.0), m.1))
  }

  /** `mark_notification_as_read(username, movie_slug)`: true iff some notice changed. */
  function MarkNotificationAsRead(db: Db, username: string, slug: string): (r: (Db, bool))
    ensures !db.enabled ==> r == (db, false)
    ensures db.enabled ==> (r.1 <==> exists i :: 0 <= i < |db.notifications| &&
                                        Targets(db.notifications[i], username, ByMovie(slug)) &&
                                        !db.notifications[i].isRead)
    ensures r.0 == db.(notifications := r.0.notifications)
    ensures |r.0.notifications| == |db.notifications|
    ensures db.enabled ==> forall i :: 0 <= i < |db.notifications| ==>
      r.0.notifications[i] == if Targets(db.notifications[i], username, ByMovie(slug))
                              then MarkedRead(db.notifications[i]) else db.notifications[i]
  {
    match MarkRead(db, username, ByMovie(slug))
    case None => (db, false)
    case Some(m) => (m.0, m.1 > 0)
  }

  /** Marking read never makes a notice unread, and a second identical call
      changes nothing and reports no modification. */
  lemma MarkReadMonotoneAndIdempotent(db: Db, username: string, key: ReadKey)
    requires db.enabled
    ensures var once := MarkRead(db, username, key).value;
      && (forall i :: 0 <= i < |db.notifications| && db.notifications[i].isRead ==> once.0.notifications[i].isRead)
      && MarkRead(once.0, username, key) == Some((once.0, 0))
  {
    var once := MarkRead(db, username, key).value;
    var twice := MarkMatching(once.0.notifications, username, key);
    assert forall i :: 0 <= i < |once.0.notifications| ==>
      (Targets(once.0.notifications[i], username, key) == Targets(db.notifications[i], username, key));
    assert twice.0 == once.0.notifications;
  }

  // ---------------------------------------------------------------------------
  // Watchlist fan-out

  /** The recipients of a fan-out: the usernames of the movie's watchlist entries,
      in collection order, skipping empty usernames. */
  function Subscribers(entries: seq<WatchEntry>, slug: string): (r: seq<string>)
    ensures |r| <= |entries|
    ensures forall u :: u in r <==>
      u != "" && exists i :: 0 <= i < |entries| && entries[i].movieSlug == slug && entries[i].username == u
  {
    if |entries| == 0 then []
    else
      var n := |entries| - 1;
      var e := entries[n];
      var rest := Subscribers(entries[..n], slug);
      assert forall i :: 0 <= i < n ==> entries[..n][i] == entries[i];
      rest + (if e.movieSlug == slug && e.username != "" then [e.username] else [])
  }

  /** With one entry per (username, slug), each recipient appears once. */
  lemma {:induction false} SubscribersDistinct(entries: seq<WatchEntry>, slug: string)
    requires UniqueEntries(entries)
    ensures forall i, j :: 0 <= i < j < |Subscribers(entries, slug)| ==>
      Subscribers(entries, slug)[i] != Subscribers(entries, slug)[j]
    decreases |entries|
  {
    if |entries| > 0 {
      var n := |entries| - 1;
      var e := entries[n];
      var rest := Subscribers(entries[..n], slug);
      assert UniqueEntries(entries[..n]);
      SubscribersDistinct(entries[..n], slug);
      if e.movieSlug == slug && e.username != "" {
        forall k | 0 <= k < n && entries[..n][k].movieSlug == slug
          ensures entries[..n][k].username != e.username
        {
          assert entries[..n][k] == entries[k];
        }
        assert e.username !in rest;
      }
    }
  }

  /** The notice the fan-out writes for one recipient. */
  function NewReviewNotice(username: string, slug: string, title: string, rating: real,
                           reviewTitle: string, now: Time): Notification {
    ReviewNotice(username, slug, title, rating, reviewTitle, NewReviewKind, now, false)
  }

  /** One notice per recipient, in order. */
  function FanoutNotices(recipients: seq<string>, slug: string, title: string, rating: real,
                         reviewTitle: string, now: Time): (r: seq<Notification>)
    ensures |r| == |recipients|
    ensures forall i :: 0 <= i < |r| ==> r[i] == NewReviewNotice(recipients[i], slug, title, rating, reviewTitle, now)
  {
    seq(|recipients|, i requires 0 <= i < |recipients| => NewReviewNotice(recipients[i], slug, title, rating, reviewTitle, now))
  }

  /** What `check_and_notify_watchlist_owners` does, stated declaratively: nothing
      below the threshold or with the store disabled, otherwise one unread
      `new_review` notice per recipient, and the number created. */
  function NotifyWatchlistOwners(db: Db, slug: string, title: string, rating: real,
                                 reviewTitle: string, now: Time): (r: (Db, nat))
    ensures r.0 == db.(notifications := r.0.notifications)
    ensures !db.enabled || rating < NotifyThreshold ==> r == (db, 0)
    ensures db.enabled && rating >= NotifyThreshold ==>
      && r.1 == |Subscribers(db.watchlists, slug)|
      && |r.0.notifications| == |db.notifications| + r.1
      && r.0.notifications[..|db.notifications|] == db.notifications
      && forall k :: |db.notifications| <= k < |r.0.notifications| ==>
           var n := r.0.notifications[k];
           n.ReviewNotice? && !n.isRead && n.movieSlug == slug && n.username in Subscribers(db.watchlists, slug)
  {
    if !db.enabled || rating < NotifyThreshold then (db, 0)
    else
      var subs := Subscribers(db.watchlists, slug);
      (db.(notifications := db.notifications + FanoutNotices(subs, slug, title, rating, reviewTitle, now)), |subs|)
  }

  /** One more watchlist entry adds at most one recipient, and its notice comes last. */
  lemma FanoutStep(w: seq<WatchEntry>, i: nat, slug: string, title: string, rating: real,
                   reviewTitle: string, now: Time)
    requires i < |w|
    ensures var e := w[i];
      var added := if e.movieSlug == slug && e.username != "" then [e.username] else [];
      && Subscribers(w[..i + 1], slug) == Subscribers(w[..i], slug) + added
      && FanoutNotices(Subscribers(w[..i + 1], slug), slug, title, rating, reviewTitle, now)
         == FanoutNotices(Subscribers(w[..i], slug), slug, title, rating, reviewTitle, now)
            + FanoutNotices(added, slug, title, rating, reviewTitle, now)
  {
    assert w[..i + 1][..i] == w[..i];
  }

  /** The source's loop: for each watchlist entry of the movie with a non-empty
      username, `create_notification` and count the successes. */
  method NotifyWatchlistOwnersLoop(db: Db, slug: string, title: string, rating: real,
                                   reviewTitle: string, now: Time) returns (after: Db, count: nat)
    ensures (after, count) == NotifyWatchlistOwners(db, slug, title, rating, reviewTitle, now)
  {
    after := db;
    count := 0;
    if !db.enabled || rating < NotifyThreshold {
      return;
    }
    var w := db.watchlists;
    var i := 0;
    while i < |w|
      invariant 0 <= i <= |w|
      invariant after == db.(notifications := db.notifications +
                               FanoutNotices(Subscribers(w[..i], slug), slug, title, rating, reviewTitle, now))
      invariant count == |Subscribers(w[..i], slug)|
    {
      FanoutStep(w, i, slug, title, rating, reviewTitle, now);
      var e := w[i];
      if e.movieSlug == slug && e.username != "" {
        var created := CreateNotification(after, e.username, slug, title, rating, reviewTitle, NewReviewKind, now);
        after := created.0;
        if created.1 {
          count := count + 1;
        }
      }
      i := i + 1;
    }
    assert w[..i] == w;
  }

  /** The fan-out is gated at 4.5 and, above it, gives each subscriber exactly one
      unread `new_review` notice and no one else any. */
  lemma FanoutOnePerSubscriber(db: Db, slug: string, title: string, rating: real,
                               reviewTitle: string, now: Time)
    requires UniqueEntries(db.watchlists)
    ensures var r := NotifyWatchlistOwners(db, slug, title, rating, reviewTitle, now);
      && r.0.notifications[..|db.notifications|] == db.notifications
      && r.0 == db.(notifications := r.0.notifications)
      && (rating < NotifyThreshold || !db.enabled ==> r == (db, 0))
      && (rating >= NotifyThreshold && db.enabled ==>
            var added := r.0.notifications[|db.notifications|..];
            && r.1 == |added|
            && (forall k :: 0 <= k < |added| ==>
                  && added[k].ReviewNotice? && added[k].kind == NewReviewKind && !added[k].isRead
                  && added[k].movieSlug == slug && added[k].reviewRating == rating)
            && (forall k, l :: 0 <= k < l < |added| ==> added[k].username != added[l].username)
            && (set k | 0 <= k < |added| :: added[k].username) ==
               (set e | e in db.watchlists && e.movieSlug == slug && e.username != "" :: e.username))
  {
    if rating >= NotifyThreshold && db.enabled {
      var subs := Subscribers(db.watchlists, slug);
      SubscribersDistinct(db.watchlists, slug);
      SubscriberSet(db.watchlists, slug);
      var r := NotifyWatchlistOwners(db, slug, title, rating, reviewTitle, now);
      var added := r.0.notifications[|db.notifications|..];
      assert added == FanoutNotices(subs, slug, title, rating, reviewTitle, now);
      FanoutUsernames(subs, slug, title, rating, reviewTitle, now);
    }
  }

  /** The notices of a fan-out are addressed to exactly the recipients. */
  lemma FanoutUsernames(subs: seq<string>, slug: string, title: string, rating: real,
                        reviewTitle: string, now: Time)
    ensures var added := FanoutNotices(subs, slug, title, rating, reviewTitle, now);
      (set k | 0 <= k < |added| :: added[k].username) == (set u | u in subs)
  {
    var added := FanoutNotices(subs, slug, title, rating, reviewTitle, now);
    forall u | u in subs
      ensures u in (set k | 0 <= k < |added| :: added[k].username)
    {
      var k :| 0 <= k < |subs| && subs[k] == u;
      assert added[k].username == u;
    }
  }

  /** The recipients are exactly the non-empty usernames of the movie's entries. */
  lemma SubscriberSet(entries: seq<WatchEntry>, slug: string)
    ensures (set u | u in Subscribers(entries, slug)) ==
            (set e | e in entries && e.movieSlug == slug && e.username != "" :: e.username)
  {
    var subs := Subscribers(entries, slug);
    forall u | u in subs
      ensures u in (set e | e in entries && e.movieSlug == slug && e.username != "" :: e.username)
    {
      var i :| 0 <= i < |entries| && entries[i].movieSlug == slug && entries[i].username == u;
      assert entries[i] in entries;
    }
    forall e | e in entries && e.movieSlug == slug && e.username != ""
      ensures e.username in subs
    {
      var i :| 0 <= i < |entries| && entries[i] == e;
    }
  }

  /** The worked example: carol and dave watch "inception"; a 5-star review
      notifies exactly those two. */
  lemma CarolAndDaveScenario(movie: Movie, t: Time)
    ensures var db := Db(true, [movie], [], [WatchEntry("carol", "inception", "Inception", 1, true),
                                             WatchEntry("dave", "inception", "Inception", 2, true)], [], [], []);
      var r := NotifyWatchlistOwners(db, "inception", "Inception", 5.0, "Wow", t);
      && r.1 == 2
      && r.0.notifications == [NewReviewNotice("carol", "inception", "Inception", 5.0, "Wow", t),
                               NewReviewNotice("dave", "inception", "Inception", 5.0, "Wow", t)]
  {
    var c := WatchEntry("carol", "inception", "Inception", 1, true);
    var d := WatchEntry("dave", "inception", "Inception", 2, true);
    assert [c, d][..1] == [c];
    assert Subscribers([c], "inception") == ["carol"];
    assert Subscribers([c, d], "inception") == ["carol", "dave"];
  }

  // ---------------------------------------------------------------------------
  // Support-response notice

  /** The notice text: the admin's text when it is at most 100 characters, else its
      first 100 characters followed by "...". */
  function PreviewMessage(text: string): (m: string)
    ensures |text| <= PreviewLength ==> m == text
    ensures |text| > PreviewLength ==> |m| == PreviewLength + 3 && m[..PreviewLength] == text[..PreviewLength] && m[PreviewLength..] == "..."
    ensures |m| <= PreviewLength + 3
  {
    if |text| > PreviewLength then text[..PreviewLength] + "..." else text
  }

  /** `notify_user_on_ticket_response`: appends one unread `support_response` notice. */
  function NotifyUserOnTicketResponse(db: Db, username: string, subject: string, text: string,
                                      now: Time): (r: (Db, bool))
    ensures r.1 <==> db.enabled
    ensures !r.1 ==> r.0 == db
    ensures r.1 ==> |r.0.notifications| == |db.notifications| + 1
                    && r.0.notifications[..|db.notifications|] == db.notifications
    ensures r.1 ==> var n := r.0.notifications[|db.notifications|];
      && n.SupportNotice? && n.username == username && n.ticketSubject == subject && !n.isRead
      && n.message == PreviewMessage(text) && n.title == "Support Response: " + subject
  {
    if !db.enabled then (db, false)
    else
      var n := SupportNotice(username, "Support Response: " + subject, PreviewMessage(text), subject, now, false);
      (db.(notifications := db.notifications + [n]), true)
  }
}

=== FILE: querytools.dfy ===
/**
  The pure helpers of scripts/mongo_tools.py: the `--keys` argument parser, the
  index suggestion heuristic, the collection-scan search over an explain plan and
  the recommendation rules of `analyze_query_performance`. Plans and filters are
  JSON-like values; a Python dict is a sequence of fields with distinct keys.
 */
module QueryTools {
  import opened Base
  import opened Text
  import opened Documents

  datatype Value =
    | Null
    | Bool(b: bool)
    | Int(i: int)
    | Float(f: real)
    | Str(s: string)
    | Dict(fields: seq<Field>)
    | List(items: seq<Value>)

  datatype Field = Field(key: string, val: Value)

  /** One index key: a field name and a direction. */
  datatype KeySpec = KeySpec(field: string, direction: int)

  /** `d.get(key)`, with a missing key giving None (here `Null`, which is how
      Python sees a stored null as well). */
  function Get(fs: seq<Field>, key: string): (r: Value)
    ensures r != Null ==> exists i :: 0 <= i < |fs| && fs[i].key == key && fs[i].val == r
    ensures (forall i :: 0 <= i < |fs| ==> fs[i].key != key) ==> r == Null
    ensures forall i :: 0 <= i < |fs| && fs[i].key == key && (forall j :: 0 <= j < i ==> fs[j].key != key) ==>
      r == fs[i].val
  {
    match FirstMatch(fs, (f: Field) => f.key == key)
    case None => Null
    case Some(i) => fs[i].val
  }

  function HasKey(fs: seq<Field>, key: string): (r: bool)
    ensures r <==> exists i :: 0 <= i < |fs| && fs[i].key == key
  {
    FirstMatch(fs, (f: Field) => f.key == key).Some?
  }

  /** Python truthiness of a value. */
  predicate IsTruthy(v: Value) {
    match v
    case Null => false
    case Bool(b) => b
    case Int(i) => i != 0
    case Float(f) => f != 0.0
    case Str(s) => s != ""
    case Dict(fs) => |fs| > 0
    case List(xs) => |xs| > 0
  }

  // ---------------------------------------------------------------------------
  // _parse_keys_arg

  datatype ParseError = BadDirection(text: string)

  /** The parts of `s.split(",")`, stripped, without the blank ones, in order. */
  function NonBlank(parts: seq<string>): (r: seq<string>)
    ensures |r| <= |parts|
    ensures forall k :: 0 <= k < |r| ==> r[k] != "" && r[k] in Map(parts, Strip)
    decreases |parts|
  {
    if |parts| == 0 then []
    else if Strip(parts[0]) == "" then NonBlank(parts[1..])
    else [Strip(parts[0])] + NonBlank(parts[1..])
  }

  /** Blank-dropping distributes over concatenation of the parts. */
  lemma {:induction false} NonBlankAppend(a: seq<string>, b: seq<string>)
    ensures NonBlank(a + b) == NonBlank(a) + NonBlank(b)
    decreases |a|
  {
    if |a| == 0 {
      assert a + b == b;
    } else {
      assert (a + b)[0] == a[0];
      assert (a + b)[1..] == a[1..] + b;
      NonBlankAppend(a[1..], b);
    }
  }

  /** A single part survives, stripped, exactly when it is not blank. */
  lemma NonBlankOne(p: string)
    ensures NonBlank([p]) == if Strip(p) == "" then [] else [Strip(p)]
  {
    assert [p][1..] == [];
  }

  /** Every stripped non-blank part is kept: a part survives iff it is not blank. */
  lemma {:induction false} NonBlankKeeps(parts: seq<string>, i: nat)
    requires i < |parts| && Strip(parts[i]) != ""
    ensures Strip(parts[i]) in NonBlank(parts)
    decreases i
  {
    if i > 0 {
      NonBlankKeeps(parts[1..], i - 1);
      assert parts[1..][i - 1] == parts[i];
    }
  }

  function Map<A, B>(s: seq<A>, f: A -> B): (r: seq<B>)
    ensures |r| == |s| && forall k :: 0 <= k < |s| ==> r[k] == f(s[k])
  {
    seq(|s|, k requires 0 <= k < |s| => f(s[k]))
  }

  /** One non-blank part: `key:direction` split at the first colon, or a bare key
      with direction 1. */
  function ParsePart(part: string): (r: Result<KeySpec, ParseError>)
    ensures ':' !in part ==> r == Ok(KeySpec(part, 1))
    ensures ':' in part && r.Ok? ==> r.value.field == Strip(part[..IndexOf(part, ':')])
    ensures r.Err? ==> ':' in part
  {
    if ':' in part then
      var i := IndexOf(part, ':');
      match ParseInt(Strip(part[i + 1..]))
      case None => Err(BadDirection(Strip(part[i + 1..])))
      case Some(d) => Ok(KeySpec(Strip(part[..i]), d))
    else Ok(KeySpec(part, 1))
  }

  /** Parses every part in order; the first bad part aborts with its error. */
  function ParseParts(parts: seq<string>): (r: Result<seq<KeySpec>, ParseError>)
    ensures r.Ok? <==> forall k :: 0 <= k < |parts| ==> ParsePart(parts[k]).Ok?
    ensures r.Ok? ==> |r.value| == |parts| && forall k :: 0 <= k < |parts| ==> r.value[k] == ParsePart(parts[k]).value
    ensures r.Err? ==> exists k :: 0 <= k < |parts| && ParsePart(parts[k]) == Err(r.error)
    decreases |parts|
  {
    if |parts| == 0 then Ok([])
    else
      match ParsePart(parts[0])
      case Err(e) => Err(e)
      case Ok(key) =>
        match ParseParts(parts[1..])
        case Err(e) => Err(e)
        case Ok(rest) => Ok([key] + rest)
  }

  /** The parts `_parse_keys_arg` reads: the comma-separated pieces, stripped, blanks dropped. */
  function KeyParts(s: string): seq<string> {
    NonBlank(Split(s, ','))
  }

  /** `_parse_keys_arg`: ValueError on a non-integer direction is `Err`. The argument
      parses iff every non-blank part does, so a single bad direction rejects it all;
      then key `k` is what the `k`-th non-blank part parses to. */
  function ParseKeysArg(s: string): (r: Result<seq<KeySpec>, ParseError>)
    ensures r.Ok? <==> forall k :: 0 <= k < |KeyParts(s)| ==> ParsePart(KeyParts(s)[k]).Ok?
    ensures r.Ok? ==> |r.value| == |KeyParts(s)|
    ensures r.Ok? ==> forall k :: 0 <= k < |r.value| ==> Ok(r.value[k]) == ParsePart(KeyParts(s)[k])
  {
    ParseParts(KeyParts(s))
  }

  /** Blank parts are skipped, bare keys ascend, and a direction follows the colon. */
  lemma ParseKeysArgExample()
    ensures ParseKeysArg("a, ,b:-1") == Ok([KeySpec("a", 1), KeySpec("b", -1)])
  {
    ExampleSplit();
    ExampleNonBlank();
    ExampleParts();
  }

  lemma ExampleParts()
    ensures ParseParts(["a", "b:-1"]) == Ok([KeySpec("a", 1), KeySpec("b", -1)])
  {
    ExamplePart();
    StripNoop("a");
    var parts := ["a", "b:-1"];
    assert ParsePart(parts[0]) == Ok(KeySpec("a", 1));
    assert ParsePart(parts[1]) == Ok(KeySpec("b", -1));
    var r := ParseParts(parts);
    assert r.Ok?;
    assert r.value == [KeySpec("a", 1), KeySpec("b", -1)];
  }

  lemma ExampleSplit()
    ensures Split("a, ,b:-1", ',') == ["a", " ", "b:-1"]
  {
    var parts := ["a", " ", "b:-1"];
    assert Join(parts, ',') == "a, ,b:-1" by {
      assert Join(parts[2..], ',') == "b:-1";
    }
    SplitJoin(parts, ',');
  }

  lemma ExampleNonBlank()
    ensures NonBlank(["a", " ", "b:-1"]) == ["a", "b:-1"]
  {
    var parts := ["a", " ", "b:-1"];
    StripNoop("a");
    StripNoop("b:-1");
    StripEmptyIffBlank(" ");
    assert parts[1..][1..][1..] == [];
    assert NonBlank(parts[1..][1..]) == ["b:-1"];
    assert NonBlank(parts[1..]) == ["b:-1"];
  }

  lemma ExamplePart()
    ensures ParsePart("b:-1") == Ok(KeySpec("b", -1))
  {
    StripNoop("b");
    StripNoop("-1");
    var part := "b:-1";
    assert IndexOf(part, ':') == 1;
    assert part[..1] == "b";
    assert part[2..] == "-1" == "-" + "1";
    ParseNegatedDigits("1", 1);
    assert ParseInt(Strip(part[2..])) == Some(-1);
  }

  /** The inverse: `field:direction` parts joined with commas. */
  function FormatKeys(keys: seq<KeySpec>): string
    requires |keys| > 0
  {
    Join(Map(keys, FormatKey), ',')
  }

  function FormatKey(k: KeySpec): string {
    k.field + ":" + ShowInt(k.direction)
  }

  /** A field name the format can carry: non-empty, no surrounding whitespace, and
      neither separator inside. */
  predicate PlainField(f: string) {
    f != "" && !IsSpace(f[0]) && !IsSpace(f[|f| - 1]) && ',' !in f && ':' !in f
  }

  lemma ShowIntShape(n: int)
    ensures var s := ShowInt(n);
      && s != "" && !IsSpace(s[0]) && !IsSpace(s[|s| - 1]) && ',' !in s && ':' !in s
  {
    var s := ShowInt(n);
    var t := ShowNat(if n < 0 then -n else n);
    assert forall i :: 0 <= i < |t| ==> IsDigit(t[i]);
    assert n < 0 ==> s == "-" + t;
  }

  /** The first colon of `f:d` is the one after `f` when `f` has none. */
  lemma ColonAfterField(f: string, d: string)
    requires ':' !in f
    ensures var p := f + ":" + d;
      && ':' in p && IndexOf(p, ':') == |f| && p[..|f|] == f && p[|f| + 1..] == d
  {
    var p := f + ":" + d;
    assert p[|f|] == ':';
    assert p[..|f|] == f;
    assert p[|f| + 1..] == d;
  }

  /** A formatted key is a non-blank part free of commas and surrounding spaces. */
  lemma FormatKeyShape(k: KeySpec)
    requires PlainField(k.field)
    ensures var p := FormatKey(k);
      p != "" && Strip(p) == p && ',' !in p
  {
    var p := FormatKey(k);
    var d := ShowInt(k.direction);
    ShowIntShape(k.direction);
    assert p[|p| - 1] == d[|d| - 1];
    StripNoop(p);
  }

  lemma FormatKeyParses(k: KeySpec)
    requires PlainField(k.field)
    ensures var p := FormatKey(k);
      && p != "" && Strip(p) == p && ',' !in p
      && ParsePart(p) == Ok(k)
  {
    var p := FormatKey(k);
    var d := ShowInt(k.direction);
    FormatKeyShape(k);
    ShowIntShape(k.direction);
    ColonAfterField(k.field, d);
    var i := IndexOf(p, ':');
    StripNoop(k.field);
    StripNoop(d);
    assert Strip(p[..i]) == k.field;
    assert Strip(p[i + 1..]) == d;
    ParseShowInt(k.direction);
    ParsePartAtFirstColon(p);
  }

  lemma {:induction false} NonBlankKeepsPlain(parts: seq<string>)
    requires forall k :: 0 <= k < |parts| ==> parts[k] != "" && Strip(parts[k]) == parts[k]
    ensures NonBlank(parts) == parts
    decreases |parts|
  {
    if |parts| > 0 {
      NonBlankKeepsPlain(parts[1..]);
    }
  }

  lemma {:induction false} ParsePartsOk(parts: seq<string>, keys: seq<KeySpec>)
    requires |parts| == |keys|
    requires forall k :: 0 <= k < |parts| ==> ParsePart(parts[k]) == Ok(keys[k])
    ensures ParseParts(parts) == Ok(keys)
    decreases |parts|
  {
    if |parts| > 0 {
      ParsePartsOk(parts[1..], keys[1..]);
      assert keys == [keys[0]] + keys[1..];
    }
  }

  /** Formatting plain keys and parsing the result gives the keys back. */
  lemma ParseFormatKeys(keys: seq<KeySpec>)
    requires |keys| > 0
    requires forall k :: 0 <= k < |keys| ==> PlainField(keys[k].field)
    ensures ParseKeysArg(FormatKeys(keys)) == Ok(keys)
  {
    var parts := Map(keys, FormatKey);
    forall k | 0 <= k < |parts|
      ensures parts[k] != "" && Strip(parts[k]) == parts[k] && ',' !in parts[k]
      ensures ParsePart(parts[k]) == Ok(keys[k])
    {
      FormatKeyParses(keys[k]);
    }
    SplitJoin(parts, ',');
    NonBlankKeepsPlain(parts);
    ParsePartsOk(parts, keys);
  }

  /** Blank parts are dropped: empty input, or only commas and spaces, gives []. */
  lemma BlankInputGivesNoKeys(s: string)
    requires forall i :: 0 <= i < |s| ==> s[i] == ',' || s[i] == ' '
    ensures ParseKeysArg(s) == Ok([])
  {
    var parts := Split(s, ',');
    forall k | 0 <= k < |parts|
      ensures Strip(parts[k]) == ""
    {
      JoinPartInside(parts, ',', k);
      forall i | 0 <= i < |parts[k]|
        ensures IsSpace(parts[k][i])
      {
        assert parts[k][i] in parts[k];
      }
      StripEmptyIffBlank(parts[k]);
    }
    NonBlankOfBlanks(parts);
  }

  lemma {:induction false} NonBlankOfBlanks(parts: seq<string>)
    requires forall k :: 0 <= k < |parts| ==> Strip(parts[k]) == ""
    ensures NonBlank(parts) == []
    decreases |parts|
  {
    if |parts| > 0 {
      NonBlankOfBlanks(parts[1..]);
    }
  }

  /** Every character of a part also occurs in the joined string. */
  lemma {:induction false} JoinPartInside(parts: seq<string>, sep: char, k: nat)
    requires |parts| > 0 && k < |parts|
    ensures forall c :: c in parts[k] ==> c in Join(parts, sep)
    decreases |parts|
  {
    if k > 0 {
      JoinPartInside(parts[1..], sep, k - 1);
    }
  }

  /** A part with a colon: the key is the stripped text before the first colon and
      the direction is `int()` of the stripped text after it, failing with it. */
  lemma ParsePartAtFirstColon(part: string)
    requires ':' in part
    ensures var i := IndexOf(part, ':');
      var d := ParseInt(Strip(part[i + 1..]));
      && (ParsePart(part).Ok? <==> d.Some?)
      && (d.Some? ==> ParsePart(part) == Ok(KeySpec(Strip(part[..i]), d.value)))
  {
    var i := IndexOf(part, ':');
    var after := Strip(part[i + 1..]);
    match ParseInt(after)
    case None =>
      assert ParsePart(part) == Err(BadDirection(after));
    case Some(v) =>
      assert ParsePart(part) == Ok(KeySpec(Strip(part[..i]), v));
  }

  // ---------------------------------------------------------------------------
  // _suggest_index_from_filter

  /** The operators that make a dict-valued condition indexable. */
  const IndexableOps: seq<string> := ["$eq", "$gt", "$lt", "$in", "$gte", "$lte"]

  predicate IsScalar(v: Value) {
    v.Bool? || v.Int? || v.Float? || v.Str?
  }

  /** Whether a filter entry yields an index key: not an operator, and an equality
      on a scalar or a dict holding one of the indexable operators. */
  predicate Indexable(f: Field) {
    && !(|f.key| > 0 && f.key[0] == '$')
    && (IsScalar(f.val) ||
        (f.val.Dict? && exists j :: 0 <= j < |IndexableOps| && HasKey(f.val.fields, IndexableOps[j])))
  }

  /** `_suggest_index_from_filter`: an ascending key per indexable entry, in filter order. */
  function SuggestIndex(filter: seq<Field>): (keys: seq<KeySpec>)
    ensures |keys| <= |filter|
    ensures forall k :: 0 <= k < |keys| ==> keys[k].direction == 1
    ensures forall k :: 0 <= k < |keys| ==> !(|keys[k].field| > 0 && keys[k].field[0] == '$')
    decreases |filter|
  {
    if |filter| == 0 then []
    else
      var last := filter[|filter| - 1];
      SuggestIndex(filter[..|filter| - 1]) + (if Indexable(last) then [KeySpec(last.key, 1)] else [])
  }

  /** The suggestion of a concatenation is the concatenation of the suggestions,
      so the keys come out in filter order. */
  lemma {:induction false} SuggestIndexAppend(a: seq<Field>, b: seq<Field>)
    ensures SuggestIndex(a + b) == SuggestIndex(a) + SuggestIndex(b)
    decreases |b|
  {
    if |b| == 0 {
      assert a + b == a;
    } else {
      var b' := b[..|b| - 1];
      assert (a + b)[..|a + b| - 1] == a + b';
      assert (a + b)[|a + b| - 1] == b[|b| - 1];
      SuggestIndexAppend(a, b');
    }
  }

  /** A single entry yields its key exactly when it is indexable. */
  lemma SuggestIndexOne(f: Field)
    ensures SuggestIndex([f]) == if Indexable(f) then [KeySpec(f.key, 1)] else []
  {
    assert [f][..0] == [];
  }

  /** A key is suggested exactly when some indexable entry has that name. */
  lemma {:induction false} SuggestIndexMembers(filter: seq<Field>, name: string)
    ensures KeySpec(name, 1) in SuggestIndex(filter) <==>
      exists i :: 0 <= i < |filter| && filter[i].key == name && Indexable(filter[i])
    decreases |filter|
  {
    if |filter| > 0 {
      var front := filter[..|filter| - 1];
      SuggestIndexMembers(front, name);
      if exists i :: 0 <= i < |front| && front[i].key == name && Indexable(front[i]) {
        var i :| 0 <= i < |front| && front[i].key == name && Indexable(front[i]);
        assert filter[i] == front[i];
      }
      if exists i :: 0 <= i < |filter| && filter[i].key == name && Indexable(filter[i]) {
        var i :| 0 <= i < |filter| && filter[i].key == name && Indexable(filter[i]);
        if i < |front| {
          assert front[i] == filter[i];
        }
      }
    }
  }

  // ---------------------------------------------------------------------------
  // _uses_collscan

  predicate StageIsCollscan(fs: seq<Field>) {
    Get(fs, "stage") == Str("COLLSCAN")
  }

  /** The search `_uses_collscan` performs from a value: a non-empty dict scans if
      its stage is COLLSCAN or some field value scans; a list scans if some dict
      element does; nothing else scans. */
  predicate Scans(v: Value)
    decreases v
  {
    match v
    case Dict(fs) =>
      |fs| > 0 && (StageIsCollscan(fs) || exists i :: 0 <= i < |fs| && Scans(fs[i].val))
    case List(items) =>
      exists i :: 0 <= i < |items| && items[i].Dict? && Scans(items[i])
    case _ => false
  }

  /** `_uses_collscan(plan)`. */
  predicate UsesCollscan(plan: seq<Field>) {
    Scans(Dict(plan))
  }

  /** A step down a plan: into the value of a dict field, or into a dict element of a list. */
  datatype Step = Into(index: nat) | At(index: nat)

  /** The value a path of steps reaches from `v`, if every step applies. */
  function Follow(v: Value, path: seq<Step>): Option<Value>
    decreases |path|
  {
    if |path| == 0 then Some(v)
    else match path[0]
      case Into(i) =>
        if v.Dict? && i < |v.fields| then Follow(v.fields[i].val, path[1..]) else None
      case At(i) =>
        if v.List? && i < |v.items| && v.items[i].Dict? then Follow(v.items[i], path[1..]) else None
  }

  /** The path reaches a dict whose stage is COLLSCAN. */
  predicate ScanAt(v: Value, path: seq<Step>) {
    var w := Follow(v, path);
    w.Some? && w.value.Dict? && StageIsCollscan(w.value.fields)
  }

  /** A path from a field's value extends to one from the dict. */
  lemma IntoStep(fs: seq<Field>, i: nat, p: seq<Step>)
    requires i < |fs| && ScanAt(fs[i].val, p)
    ensures ScanAt(Dict(fs), [Into(i)] + p)
  {
    assert ([Into(i)] + p)[1..] == p;
  }

  /** A path from a dict element extends to one from the list. */
  lemma AtStep(items: seq<Value>, i: nat, p: seq<Step>)
    requires i < |items| && items[i].Dict? && ScanAt(items[i], p)
    ensures ScanAt(List(items), [At(i)] + p)
  {
    assert ([At(i)] + p)[1..] == p;
  }

  lemma {:induction false} ScansHasPath(v: Value) returns (path: seq<Step>)
    requires Scans(v)
    ensures ScanAt(v, path)
    decreases v
  {
    match v
    case Dict(fs) =>
      if StageIsCollscan(fs) {
        path := [];
      } else {
        var i :| 0 <= i < |fs| && Scans(fs[i].val);
        var p := ScansHasPath(fs[i].val);
        IntoStep(fs, i, p);
        path := [Into(i)] + p;
      }
    case List(items) =>
      var i :| 0 <= i < |items| && items[i].Dict? && Scans(items[i]);
      var p := ScansHasPath(items[i]);
      AtStep(items, i, p);
      path := [At(i)] + p;
  }

  lemma {:induction false} PathScans(v: Value, path: seq<Step>)
    requires ScanAt(v, path)
    ensures Scans(v)
    decreases |path|
  {
    if |path| > 0 {
      match path[0]
      case Into(i) =>
        PathScans(v.fields[i].val, path[1..]);
      case At(i) =>
        PathScans(v.items[i], path[1..]);
    }
  }

  /** `_uses_collscan` is true exactly when the plan itself, or a dict reachable
      through dict values and dict elements of lists, has stage COLLSCAN. */
  lemma CollscanIffReachable(plan: seq<Field>)
    ensures UsesCollscan(plan) <==> exists path :: ScanAt(Dict(plan), path)
  {
    if UsesCollscan(plan) {
      var path := ScansHasPath(Dict(plan));
    }
    if path :| ScanAt(Dict(plan), path) {
      PathScans(Dict(plan), path);
    }
  }

  // ---------------------------------------------------------------------------
  // analyze_query_performance: execution time and recommendations

  /** The default `threshold_ms`. */
  const DefaultThresholdMs: int := 50

  /** Python `a or b`. */
  function Or(a: Value, b: Value): (r: Value)
    ensures IsTruthy(a) ==> r == a
    ensures !IsTruthy(a) ==> r == b
  {
    if IsTruthy(a) then a else b
  }

  /** `executionTimeMillis` as the analysis reads it: from the first truthy one of
      `executionStats` and `stages`, when that is a dict; otherwise None (`Null`). */
  function ExecTime(plan: seq<Field>): Value {
    var stats := Or(Or(Get(plan, "executionStats"), Get(plan, "stages")), Dict([]));
    if stats.Dict? then Get(stats.fields, "executionTimeMillis") else Null
  }

  /** Where the execution time comes from: a non-empty `executionStats` dict wins;
      a truthy non-dict there hides `stages`; a plan with neither gives None. */
  lemma ExecTimeSource(plan: seq<Field>)
    ensures var es := Get(plan, "executionStats");
      && (es.Dict? && |es.fields| > 0 ==> ExecTime(plan) == Get(es.fields, "executionTimeMillis"))
      && (IsTruthy(es) && !es.Dict? ==> ExecTime(plan) == Null)
      && (!HasKey(plan, "executionStats") && !HasKey(plan, "stages") ==> ExecTime(plan) == Null)
  {
    var es := Get(plan, "executionStats");
    if IsTruthy(es) {
      assert Or(Or(es, Get(plan, "stages")), Dict([])) == es;
    } else if !HasKey(plan, "executionStats") && !HasKey(plan, "stages") {
      assert es == Null && Get(plan, "stages") == Null;
    }
  }

  /** The number a value is as the left side of `>` against an int; None where
      Python raises TypeError. `bool` is a subclass of `int`. */
  function Numeric(v: Value): Option<real> {
    match v
    case Bool(b) => Some(if b then 1.0 else 0.0)
    case Int(i) => Some(i as real)
    case Float(f) => Some(f)
    case _ => None
  }

  datatype Recommendation =
    | AddIndex(keys: seq<KeySpec>)
    | ScanWithUnindexableFilter
    | ScanWithoutFilter
    | SlowQuery(millis: Value, thresholdMs: int)

  datatype Analysis = Analysis(
    plan: seq<Field>,
    executionTimeMillis: Value,
    usesCollScan: bool,
    recommendations: seq<Recommendation>)

  /** The comparison `executionTimeMillis > threshold_ms` raised TypeError. */
  datatype AnalysisError = TypeError

  /** The recommendation for a collection scan, chosen by the filter. */
  function ScanRecommendation(filter: seq<Field>): Recommendation {
    if |filter| > 0 then
      var keys := SuggestIndex(filter);
      if |keys| > 0 then AddIndex(keys) else ScanWithUnindexableFilter
    else ScanWithoutFilter
  }

  /** The recommendations in the order the analysis adds them: the scan advice,
      then the slow-query warning. */
  function Recommend(scan: bool, filter: seq<Field>, slow: bool, t: Value, thresholdMs: int): seq<Recommendation> {
    (if scan then [ScanRecommendation(filter)] else []) + (if slow then [SlowQuery(t, thresholdMs)] else [])
  }

  /** The analysis of an explain `plan` of a query with `filter`. */
  function AnalyzeQuery(plan: seq<Field>, filter: seq<Field>, thresholdMs: int): (r: Result<Analysis, AnalysisError>)
    ensures r.Err? <==> ExecTime(plan) != Null && Numeric(ExecTime(plan)).None?
    ensures r.Ok? ==>
      && r.value.plan == plan
      && r.value.executionTimeMillis == ExecTime(plan)
      && r.value.usesCollScan == UsesCollscan(plan)
  {
    var t := ExecTime(plan);
    var scan := UsesCollscan(plan);
    if t == Null then Ok(Analysis(plan, t, scan, Recommend(scan, filter, false, t, thresholdMs)))
    else match Numeric(t)
      case None => Err(TypeError)
      case Some(x) => Ok(Analysis(plan, t, scan, Recommend(scan, filter, x > thresholdMs as real, t, thresholdMs)))
  }

  function CountScanAdvice(recs: seq<Recommendation>): nat {
    if |recs| == 0 then 0
    else CountScanAdvice(recs[..|recs| - 1]) + (if recs[|recs| - 1].SlowQuery? then 0 else 1)
  }

  /** The shape of the recommendation list, for given scan and slowness verdicts. */
  lemma RecommendShape(scan: bool, filter: seq<Field>, slow: bool, t: Value, thresholdMs: int)
    ensures var recs := Recommend(scan, filter, slow, t, thresholdMs);
      && CountScanAdvice(recs) == (if scan then 1 else 0)
      && ((exists k :: 0 <= k < |recs| && recs[k].SlowQuery?) <==> slow)
      && (scan ==> recs[0] == ScanRecommendation(filter))
      && (AddIndex(SuggestIndex(filter)) in recs <==> scan && SuggestIndex(filter) != [])
      && (ScanWithUnindexableFilter in recs <==> scan && |filter| > 0 && SuggestIndex(filter) == [])
      && (ScanWithoutFilter in recs <==> scan && |filter| == 0)
  {
    var recs := Recommend(scan, filter, slow, t, thresholdMs);
    var sr := ScanRecommendation(filter);
    var w := SlowQuery(t, thresholdMs);
    assert !sr.SlowQuery?;
    if |filter| == 0 {
      assert SuggestIndex(filter) == [];
    }
    if scan && slow {
      assert recs == [sr, w];
      assert recs[..1] == [sr] && [sr][..0] == [];
    } else if scan {
      assert recs == [sr];
      assert recs[..0] == [];
    } else if slow {
      assert recs == [w];
      assert recs[..0] == [];
    } else {
      assert recs == [];
    }
  }

  /** The recommendation rules: exactly one scan recommendation when the plan scans
      the collection and none otherwise, chosen by the filter; a slow-query
      recommendation exactly when the time is present and above the threshold. */
  lemma RecommendationRules(plan: seq<Field>, filter: seq<Field>, thresholdMs: int)
    requires AnalyzeQuery(plan, filter, thresholdMs).Ok?
    ensures var recs := AnalyzeQuery(plan, filter, thresholdMs).value.recommendations;
      && CountScanAdvice(recs) == (if UsesCollscan(plan) then 1 else 0)
      && ((exists k :: 0 <= k < |recs| && recs[k].SlowQuery?) <==>
            ExecTime(plan) != Null && Numeric(ExecTime(plan)).value > thresholdMs as real)
      && (UsesCollscan(plan) ==> recs[0] == ScanRecommendation(filter))
      && (AddIndex(SuggestIndex(filter)) in recs <==> UsesCollscan(plan) && SuggestIndex(filter) != [])
      && (ScanWithUnindexableFilter in recs <==> UsesCollscan(plan) && |filter| > 0 && SuggestIndex(filter) == [])
      && (ScanWithoutFilter in recs <==> UsesCollscan(plan) && |filter| == 0)
  {
    var t := ExecTime(plan);
    var slow := t != Null && Numeric(t).value > thresholdMs as real;
    assert AnalyzeQuery(plan, filter, thresholdMs).value.recommendations
      == Recommend(UsesCollscan(plan), filter, slow, t, thresholdMs);
    RecommendShape(UsesCollscan(plan), filter, slow, t, thresholdMs);
  }
}

=== FILE: reviews.dfy ===
/**
  `upsert_review` (movies/mongo_access.py): one review per (movie slug, user),
  written with an update-or-insert, followed by a recomputation of the movie's
  average rating and review count from all of its reviews.
 */
module Reviews {
  import opened Base
  import opened Documents

  predicate HasKey(r: Review, slug: string, user: string) {
    r.movieSlug == slug && r.user == user
  }

  /** At most one review per (movie slug, user). */
  predicate UniqueReviews(reviews: seq<Review>) {
    forall i, j :: 0 <= i < j < |reviews| ==>
      !(reviews[i].movieSlug == reviews[j].movieSlug && reviews[i].user == reviews[j].user)
  }

  function FindReview(reviews: seq<Review>, slug: string, user: string): Option<nat> {
    FirstMatch(reviews, (r: Review) => HasKey(r, slug, user))
  }

  /** Number of reviews of the movie `slug`. */
  function CountFor(reviews: seq<Review>, slug: string): nat {
    if |reviews| == 0 then 0
    else CountFor(reviews[..|reviews| - 1], slug) + (if reviews[|reviews| - 1].movieSlug == slug then 1 else 0)
  }

  /** Sum of the ratings of the reviews of the movie `slug`. */
  function SumFor(reviews: seq<Review>, slug: string): int {
    if |reviews| == 0 then 0
    else SumFor(reviews[..|reviews| - 1], slug) + (if reviews[|reviews| - 1].movieSlug == slug then reviews[|reviews| - 1].rating else 0)
  }

  /** The `$avg` of the ratings of the movie's reviews (0 when it has none). */
  function MeanFor(reviews: seq<Review>, slug: string): real {
    var n := CountFor(reviews, slug);
    if n == 0 then 0.0 else SumFor(reviews, slug) as real / n as real
  }

  /** A movie whose stored aggregates agree with its reviews. */
  predicate MovieSynced(m: Movie, reviews: seq<Review>) {
    m.reviewCount == CountFor(reviews, m.slug) && m.avgRating == MeanFor(reviews, m.slug)
  }

  /** The derived-field invariant: every movie's aggregates agree with its reviews. */
  predicate Synced(db: Db) {
    forall j :: 0 <= j < |db.movies| ==> MovieSynced(db.movies[j], db.reviews)
  }

  /** Python's `int(x)` of a number: truncation toward zero. */
  function TruncateToInt(x: real): (n: int)
    ensures x >= 0.0 ==> n as real <= x < n as real + 1.0
    ensures x < 0.0 ==> n as real - 1.0 < x <= n as real
  {
    if x >= 0.0 then x.Floor else -((-x).Floor)
  }

  /** What `update_one(..., upsert=True)` reports. */
  datatype UpsertResult = UpsertResult(upserted: bool, matchedCount: nat, modifiedCount: nat)

  /** The review write: `$set` of rating, title, body and updated_at on the
      matching review, or an insert that also sets the key and created_at. */
  function WriteReview(reviews: seq<Review>, slug: string, user: string, rating: int,
                       title: string, body: string, now: Time): (r: (seq<Review>, UpsertResult))
    ensures FindReview(reviews, slug, user).Some? ==>
      var i := FindReview(reviews, slug, user).value;
      && r.0 == reviews[i := Review(slug, user, rating, title, body, reviews[i].createdAt, now)]
      && r.1 == UpsertResult(false, 1, if r.0[i] == reviews[i] then 0 else 1)
    ensures FindReview(reviews, slug, user).None? ==>
      && r.0 == reviews + [Review(slug, user, rating, title, body, now, now)]
      && r.1 == UpsertResult(true, 0, 0)
  {
    match FindReview(reviews, slug, user)
    case Some(i) =>
      var updated := reviews[i].(rating := rating, title := title, body := body, updatedAt := now);
      (reviews[i := updated], UpsertResult(false, 1, if updated == reviews[i] then 0 else 1))
    case None =>
      (reviews + [Review(slug, user, rating, title, body, now, now)], UpsertResult(true, 0, 0))
  }

  /** The aggregation pipeline and the `$set` of avg_rating / review_count on the
      first movie with the slug; nothing is written when the movie has no reviews. */
  function SyncAggregate(movies: seq<Movie>, reviews: seq<Review>, slug: string): (r: seq<Movie>)
    ensures |r| == |movies|
    ensures CountFor(reviews, slug) == 0 ==> r == movies
    ensures CountFor(reviews, slug) > 0 && FindMovie(movies, slug).Some? ==>
      var j := FindMovie(movies, slug).value;
      && r[j] == movies[j].(avgRating := MeanFor(reviews, slug), reviewCount := CountFor(reviews, slug))
      && forall k :: 0 <= k < |movies| && k != j ==> r[k] == movies[k]
    ensures FindMovie(movies, slug).None? ==> r == movies
  {
    var n := CountFor(reviews, slug);
    if n == 0 then movies
    else
      match FindMovie(movies, slug)
      case None => movies
      case Some(j) =>
        movies[j := movies[j].(avgRating := SumFor(reviews, slug) as real / n as real, reviewCount := n)]
  }

  /** `upsert_review` on the Mongo branch. `None` when the store is disabled (the
      relational fallback is not part of this model). */
  function UpsertReview(db: Db, slug: string, user: string, rating: real,
                        title: string, body: string, now: Time): (r: (Db, Option<UpsertResult>))
    ensures !db.enabled ==> r == (db, None)
    ensures db.enabled ==> r.1.Some?
    ensures r.0.enabled == db.enabled && r.0.watchlists == db.watchlists && r.0.views == db.views
    ensures r.0.notifications == db.notifications && r.0.tickets == db.tickets
    ensures db.enabled ==>
      var w := WriteReview(db.reviews, slug, user, TruncateToInt(rating), title, body, now);
      && r.0.reviews == w.0 && r.1 == Some(w.1)
      && r.0.movies == SyncAggregate(db.movies, w.0, slug)
  {
    if !db.enabled then (db, None)
    else
      var w := WriteReview(db.reviews, slug, user, TruncateToInt(rating), title, body, now);
      (db.(reviews := w.0, movies := SyncAggregate(db.movies, w.0, slug)), Some(w.1))
  }

  // ---------------------------------------------------------------------------
  // Counting lemmas

  lemma CountSumAppend(reviews: seq<Review>, x: Review, slug: string)
    ensures CountFor(reviews + [x], slug) == CountFor(reviews, slug) + (if x.movieSlug == slug then 1 else 0)
    ensures SumFor(reviews + [x], slug) == SumFor(reviews, slug) + (if x.movieSlug == slug then x.rating else 0)
  {
    assert (reviews + [x])[..|reviews|] == reviews;
  }

  /** Replacing one review by another for the same movie keeps every count and
      changes only that movie's sum, by the rating difference. */
  lemma {:induction false} CountSumReplace(reviews: seq<Review>, i: nat, x: Review, slug: string)
    requires i < |reviews| && x.movieSlug == reviews[i].movieSlug
    ensures CountFor(reviews[i := x], slug) == CountFor(reviews, slug)
    ensures SumFor(reviews[i := x], slug) ==
      SumFor(reviews, slug) + (if x.movieSlug == slug then x.rating - reviews[i].rating else 0)
    decreases |reviews|
  {
    var n := |reviews|;
    var after := reviews[i := x];
    if i == n - 1 {
      assert after[..n - 1] == reviews[..n - 1];
    } else {
      assert after[..n - 1] == reviews[..n - 1][i := x];
      CountSumReplace(reviews[..n - 1], i, x, slug);
    }
  }

  // ---------------------------------------------------------------------------
  // Properties of the upsert

  /** After the write there is exactly one review for the key, holding the new
      rating, title, body and updated_at, and keeping its created_at. */
  lemma {:induction false} WriteReviewStoresOne(reviews: seq<Review>, slug: string, user: string,
                                                 rating: int, title: string, body: string, now: Time)
    requires UniqueReviews(reviews)
    ensures var w := WriteReview(reviews, slug, user, rating, title, body, now);
      && UniqueReviews(w.0)
      && FindReview(w.0, slug, user).Some?
      && var k := FindReview(w.0, slug, user).value;
      && w.0[k].rating == rating && w.0[k].title == title && w.0[k].body == body
      && w.0[k].updatedAt == now
      && w.0[k].createdAt == (if w.1.upserted then now else reviews[FindReview(reviews, slug, user).value].createdAt)
      && (forall j :: 0 <= j < |w.0| && j != k ==> !HasKey(w.0[j], slug, user))
  {
    var w := WriteReview(reviews, slug, user, rating, title, body, now);
    match FindReview(reviews, slug, user)
    case Some(i) =>
      assert HasKey(reviews[i], slug, user);
      forall j | 0 <= j < |w.0| && j != i
        ensures !HasKey(w.0[j], slug, user)
      {
        assert w.0[j] == reviews[j];
        if j < i {
        } else {
          assert !(reviews[i].movieSlug == reviews[j].movieSlug && reviews[i].user == reviews[j].user);
        }
      }
      assert HasKey(w.0[i], slug, user);
      assert FindReview(w.0, slug, user) == Some(i);
    case None =>
      var n := |reviews|;
      assert HasKey(w.0[n], slug, user);
      assert FindReview(w.0, slug, user) == Some(n);
  }

  /** Reviews with another key keep their position and content. */
  lemma WriteReviewFramesOthers(reviews: seq<Review>, slug: string, user: string,
                                rating: int, title: string, body: string, now: Time)
    ensures var w := WriteReview(reviews, slug, user, rating, title, body, now);
      && |w.0| == |reviews| + (if w.1.upserted then 1 else 0)
      && forall j :: 0 <= j < |reviews| && !HasKey(reviews[j], slug, user) ==> w.0[j] == reviews[j]
  {
  }

  /** After `upsert_review`, the first movie with the slug holds the mean rating
      and the number of all reviews of that movie, every other movie is unchanged,
      and the upserted review carries the truncated rating. */
  lemma UpsertSyncsAggregate(db: Db, slug: string, user: string, rating: real,
                             title: string, body: string, now: Time)
    requires db.enabled
    requires UniqueReviews(db.reviews)
    ensures var after := UpsertReview(db, slug, user, rating, title, body, now).0;
      && UniqueReviews(after.reviews)
      && CountFor(after.reviews, slug) > 0
      && |after.movies| == |db.movies|
      && (FindMovie(db.movies, slug).Some? ==>
            var j := FindMovie(db.movies, slug).value;
            && MovieSynced(after.movies[j], after.reviews)
            && forall k :: 0 <= k < |db.movies| && k != j ==> after.movies[k] == db.movies[k])
      && FindReview(after.reviews, slug, user).Some?
      && after.reviews[FindReview(after.reviews, slug, user).value].rating == TruncateToInt(rating)
  {
    var w := WriteReview(db.reviews, slug, user, TruncateToInt(rating), title, body, now);
    WriteReviewStoresOne(db.reviews, slug, user, TruncateToInt(rating), title, body, now);
    match FindReview(db.reviews, slug, user)
    case Some(i) =>
      CountSumReplace(db.reviews, i, w.0[i], slug);
      assert HasKey(db.reviews[i], slug, user);
      assert CountFor(db.reviews, slug) > 0 by { CountPositive(db.reviews, i, slug); }
    case None =>
      CountSumAppend(db.reviews, w.0[|db.reviews|], slug);
      assert w.0 == db.reviews + [w.0[|db.reviews|]];
  }

  lemma {:induction false} CountPositive(reviews: seq<Review>, i: nat, slug: string)
    requires i < |reviews| && reviews[i].movieSlug == slug
    ensures CountFor(reviews, slug) > 0
    decreases |reviews|
  {
    if i < |reviews| - 1 {
      CountPositive(reviews[..|reviews| - 1], i, slug);
    }
  }

  /** The aggregates of movies other than `slug` do not depend on the write. */
  lemma WriteKeepsOtherTallies(reviews: seq<Review>, slug: string, user: string,
                               rating: int, title: string, body: string, now: Time, other: string)
    requires other != slug
    ensures var w := WriteReview(reviews, slug, user, rating, title, body, now);
      CountFor(w.0, other) == CountFor(reviews, other) && SumFor(w.0, other) == SumFor(reviews, other)
  {
    var w := WriteReview(reviews, slug, user, rating, title, body, now);
    match FindReview(reviews, slug, user)
    case Some(i) =>
      CountSumReplace(reviews, i, w.0[i], other);
    case None =>
      CountSumAppend(reviews, w.0[|reviews|], other);
      assert w.0 == reviews + [w.0[|reviews|]];
  }

  /** The derived-field invariant survives every upsert, as long as slugs are unique. */
  lemma UpsertPreservesSynced(db: Db, slug: string, user: string, rating: real,
                              title: string, body: string, now: Time)
    requires UniqueSlugs(db.movies) && UniqueReviews(db.reviews) && Synced(db)
    ensures Synced(UpsertReview(db, slug, user, rating, title, body, now).0)
  {
    if db.enabled {
      var after := UpsertReview(db, slug, user, rating, title, body, now).0;
      UpsertSyncsAggregate(db, slug, user, rating, title, body, now);
      forall k | 0 <= k < |after.movies|
        ensures MovieSynced(after.movies[k], after.reviews)
      {
        var m := db.movies[k];
        if m.slug == slug {
          assert FindMovie(db.movies, slug).Some?;
          var j := FindMovie(db.movies, slug).value;
          assert j == k;
        } else {
          WriteKeepsOtherTallies(db.reviews, slug, user, TruncateToInt(rating), title, body, now, m.slug);
          if FindMovie(db.movies, slug).Some? {
            assert k != FindMovie(db.movies, slug).value;
          }
        }
      }
    }
  }

  /** Writing over an existing review keeps the movie's count, moves its sum by the
      rating difference, and at an unchanged payload and time changes nothing. */
  lemma RewriteExisting(reviews: seq<Review>, slug: string, user: string, rating: int,
                        title: string, body: string, now: Time)
    requires FindReview(reviews, slug, user).Some?
    ensures var k := FindReview(reviews, slug, user).value;
      var w := WriteReview(reviews, slug, user, rating, title, body, now);
      && |w.0| == |reviews| && !w.1.upserted
      && CountFor(w.0, slug) == CountFor(reviews, slug)
      && SumFor(w.0, slug) == SumFor(reviews, slug) + rating - reviews[k].rating
      && var same := reviews[k].rating == rating && reviews[k].title == title && reviews[k].body == body && reviews[k].updatedAt == now;
      && (same ==> w.0 == reviews && w.1.modifiedCount == 0)
  {
    var k := FindReview(reviews, slug, user).value;
    var x := Review(slug, user, rating, title, body, reviews[k].createdAt, now);
    assert HasKey(reviews[k], slug, user);
    CountSumReplace(reviews, k, x, slug);
    if reviews[k].rating == rating && reviews[k].title == title && reviews[k].body == body
       && reviews[k].updatedAt == now {
      assert x == reviews[k];
    }
  }

  /** A second write with the same payload finds the review the first one left. */
  lemma WriteTwice(reviews: seq<Review>, slug: string, user: string, rating: int,
                   title: string, body: string, now: Time, later: Time)
    requires UniqueReviews(reviews)
    ensures var w1 := WriteReview(reviews, slug, user, rating, title, body, now);
      var w2 := WriteReview(w1.0, slug, user, rating, title, body, later);
      && |w2.0| == |w1.0|
      && !w2.1.upserted
      && CountFor(w2.0, slug) == CountFor(w1.0, slug)
      && SumFor(w2.0, slug) == SumFor(w1.0, slug)
      && (later == now ==> w2.0 == w1.0 && w2.1.modifiedCount == 0)
  {
    var w1 := WriteReview(reviews, slug, user, rating, title, body, now);
    WriteReviewStoresOne(reviews, slug, user, rating, title, body, now);
    RewriteExisting(w1.0, slug, user, rating, title, body, later);
  }

  /** Recomputing an aggregate that is already in place changes nothing. */
  lemma SyncAggregateIdempotent(movies: seq<Movie>, reviews: seq<Review>, slug: string)
    ensures SyncAggregate(SyncAggregate(movies, reviews, slug), reviews, slug) == SyncAggregate(movies, reviews, slug)
  {
    var once := SyncAggregate(movies, reviews, slug);
    FirstMatchAgrees(once, movies, (m: Movie) => m.slug == slug);
  }

  /** Resubmitting the same review changes neither the number of reviews nor any
      aggregate; at the same clock reading the store is left exactly as it was. */
  lemma ResubmitIsIdempotent(db: Db, slug: string, user: string, rating: real,
                             title: string, body: string, now: Time, later: Time)
    requires db.enabled && UniqueReviews(db.reviews)
    ensures var once := UpsertReview(db, slug, user, rating, title, body, now);
      var twice := UpsertReview(once.0, slug, user, rating, title, body, later);
      && |twice.0.reviews| == |once.0.reviews|
      && !twice.1.value.upserted
      && CountFor(twice.0.reviews, slug) == CountFor(once.0.reviews, slug)
      && MeanFor(twice.0.reviews, slug) == MeanFor(once.0.reviews, slug)
      && (later == now ==> twice.0 == once.0 && twice.1.value.modifiedCount == 0)
  {
    var once := UpsertReview(db, slug, user, rating, title, body, now);
    WriteTwice(db.reviews, slug, user, TruncateToInt(rating), title, body, now, later);
    if later == now {
      SyncAggregateIdempotent(db.movies, once.0.reviews, slug);
    }
  }

  /** The worked example: alice rates 5, bob rates 3, alice changes hers to 1. */
  lemma InceptionScenario(movie: Movie)
    requires movie.slug == "inception" && movie.avgRating == 0.0 && movie.reviewCount == 0
    ensures var db0 := Db(true, [movie], [], [], [], [], []);
      var db1 := UpsertReview(db0, "inception", "alice", 5.0, "", "", 1).0;
      var db2 := UpsertReview(db1, "inception", "bob", 3.0, "", "", 2).0;
      var db3 := UpsertReview(db2, "inception", "alice", 1.0, "", "", 3).0;
      && db1.movies[0].avgRating == 5.0 && db1.movies[0].reviewCount == 1
      && db2.movies[0].avgRating == 4.0 && db2.movies[0].reviewCount == 2
      && db3.movies[0].avgRating == 2.0 && db3.movies[0].reviewCount == 2
  {
    var db0 := Db(true, [movie], [], [], [], [], []);
    var a5 := Review("inception", "alice", 5, "", "", 1, 1);
    var b3 := Review("inception", "bob", 3, "", "", 2, 2);
    var a1 := Review("inception", "alice", 1, "", "", 1, 3);
    var db1 := UpsertReview(db0, "inception", "alice", 5.0, "", "", 1).0;
    assert db1.reviews == [a5];
    assert CountFor([a5], "inception") == 1 by { CountSumAppend([], a5, "inception"); }
    assert SumFor([a5], "inception") == 5 by { CountSumAppend([], a5, "inception"); }
    assert FindMovie(db1.movies, "inception") == Some(0);
    var db2 := UpsertReview(db1, "inception", "bob", 3.0, "", "", 2).0;
    assert FindReview([a5], "inception", "bob").None?;
    assert db2.reviews == [a5, b3];
    CountSumAppend([a5], b3, "inception");
    assert [a5] + [b3] == [a5, b3];
    var db3 := UpsertReview(db2, "inception", "alice", 1.0, "", "", 3).0;
    assert FindReview([a5, b3], "inception", "alice") == Some(0);
    assert db3.reviews == [a1, b3];
    CountSumReplace([a5, b3], 0, a1, "inception");
    assert [a5, b3][0 := a1] == [a1, b3];
  }

  // ---------------------------------------------------------------------------
  // The aggregate sync as written

  /** `upsert_review` as the code stands: the relational `Movie` model has no
      `slug` field, so `Movie.objects.filter(slug=...)` raises FieldError before the
      `$set` on the movies collection; the enclosing `except` swallows it, and the
      review is written while every movie document stays as it was. */
  function UpsertReviewAsWritten(db: Db, slug: string, user: string, rating: real,
                                 title: string, body: string, now: Time): (r: (Db, Option<UpsertResult>))
    ensures !db.enabled ==> r == (db, None)
    ensures r.0.movies == db.movies
    ensures db.enabled ==> r.0.reviews == UpsertReview(db, slug, user, rating, title, body, now).0.reviews
  {
    if !db.enabled then (db, None)
    else
      var w := WriteReview(db.reviews, slug, user, TruncateToInt(rating), title, body, now);
      (db.(reviews := w.0), Some(w.1))
  }

  /** The unit test's setting: movie `t1` with no reviews gets one review rated 5.
      As written the movie keeps count 0 while one review exists, so the store is
      out of sync; the corrected upsert gives count 1 and average 5.0. */
  lemma AsWrittenLeavesAggregateStale(movie: Movie)
    requires movie.slug == "t1" && movie.avgRating == 0.0 && movie.reviewCount == 0
    ensures var db0 := Db(true, [movie], [], [], [], [], []);
      var stale := UpsertReviewAsWritten(db0, "t1", "u1", 5.0, "Great", "Great movie", 1).0;
      var fixed := UpsertReview(db0, "t1", "u1", 5.0, "Great", "Great movie", 1).0;
      && stale.movies[0].reviewCount == 0 && CountFor(stale.reviews, "t1") == 1 && !Synced(stale)
      && fixed.movies[0].reviewCount == 1 && fixed.movies[0].avgRating == 5.0 && Synced(fixed)
  {
    var db0 := Db(true, [movie], [], [], [], [], []);
    var x := Review("t1", "u1", 5, "Great", "Great movie", 1, 1);
    CountSumAppend([], x, "t1");
    assert [] + [x] == [x];
    var stale := UpsertReviewAsWritten(db0, "t1", "u1", 5.0, "Great", "Great movie", 1).0;
    assert stale.reviews == [x];
    assert !MovieSynced(stale.movies[0], stale.reviews);
    var fixed := UpsertReview(db0, "t1", "u1", 5.0, "Great", "Great movie", 1).0;
    assert fixed.reviews == [x];
    assert FindMovie(db0.movies, "t1") == Some(0);
  }
}

=== FILE: sessions.dfy ===
/**
  The MongoDB session backend of mongodb_session/session.py: a table from session
  key to (session data, expiry). Session data is kept decoded; the random key
  generator is a finite stream of candidate keys.
 */
module Sessions {
  import opened Base
  import opened Documents

  type SessionData = map<string, string>

  /** A `django_sessions` document; `expireDate` is None when the field is missing. */
  datatype Record = Record(data: SessionData, expireDate: Option<Time>)

  type Table = map<string, Record>

  datatype CreateError = CreateError

  /** A record `load` accepts: its expiry is present and strictly after `now`. */
  predicate Live(r: Record, now: Time) {
    r.expireDate.Some? && r.expireDate.value > now
  }

  /** A record `clear_expired` deletes: `{'expire_date': {'$lt': now}}`, which a
      missing field does not match. */
  predicate Expired(r: Record, now: Time) {
    r.expireDate.Some? && r.expireDate.value < now
  }

  /** `save(must_create)` of `data` with expiry `expiry` under `key`. */
  function Save(table: Table, key: string, data: SessionData, expiry: Time, mustCreate: bool): (r: Result<Table, CreateError>)
    ensures r.Err? <==> mustCreate && key in table
    ensures r.Ok? ==> r.value == table[key := Record(data, Some(expiry))]
  {
    if mustCreate && key in table then Err(CreateError)
    else Ok(table[key := Record(data, Some(expiry))])
  }

  /** `exists(key)`. */
  function Exists(table: Table, key: string): (r: bool)
    ensures r <==> key in table
  {
    key in table
  }

  /** The key `create` settles on: the first candidate not already taken. */
  function FirstFreshKey(candidates: seq<string>, table: Table): (r: Option<string>)
    ensures r.Some? ==> r.value in candidates && r.value !in table
    ensures r.None? <==> forall j :: 0 <= j < |candidates| ==> candidates[j] in table
  {
    match FirstMatch(candidates, (c: string) => c !in table)
    case None => None
    case Some(i) => Some(candidates[i])
  }

  /** `create`: draws keys until `save(must_create=True)` stops raising CreateError.
      The result is None only if every candidate collided, where the source keeps drawing. */
  method Create(table: Table, candidates: seq<string>, data: SessionData, expiry: Time)
    returns (key: Option<string>, after: Table)
    ensures key == FirstFreshKey(candidates, table)
    ensures key.Some? ==> key.value !in table && after == table[key.value := Record(data, Some(expiry))]
    ensures key.None? ==> after == table
  {
    var i := 0;
    while i < |candidates|
      invariant 0 <= i <= |candidates|
      invariant forall j :: 0 <= j < i ==> candidates[j] in table
    {
      var saved := Save(table, candidates[i], data, expiry, true);
      if saved.Ok? {
        assert FirstMatch(candidates, (c: string) => c !in table) == Some(i);
        return Some(candidates[i]), saved.value;
      }
      i := i + 1;
    }
    return None, table;
  }

  /** What `load` leaves behind: the table, the session key, and the session data. */
  datatype Loaded = Loaded(table: Table, key: Option<string>, data: SessionData)

  /** `load`: the stored data of a live record; otherwise a fresh empty session. */
  function Load(table: Table, key: Option<string>, now: Time, candidates: seq<string>, expiry: Time): (r: Loaded)
    ensures key.Some? && key.value in table && Live(table[key.value], now) ==>
      r == Loaded(table, key, table[key.value].data)
    ensures !(key.Some? && key.value in table && Live(table[key.value], now)) ==>
      && r.data == map[]
      && r.key == FirstFreshKey(candidates, table)
      && (r.key.Some? ==> r.key.value !in table && r.table == table[r.key.value := Record(map[], Some(expiry))])
      && (r.key.None? ==> r.table == table)
  {
    if key.Some? && key.value in table && Live(table[key.value], now) then
      Loaded(table, key, table[key.value].data)
    else
      match FirstFreshKey(candidates, table)
      case None => Loaded(table, None, map[])
      case Some(k) => Loaded(table[k := Record(map[], Some(expiry))], Some(k), map[])
  }

  /** `delete(session_key)`: the given key if truthy, else the current key; deleting
      an absent key or no key changes nothing. */
  function Delete(table: Table, sessionKey: Option<string>, current: Option<string>): (r: Table)
    ensures var k := if sessionKey.Some? && sessionKey.value != "" then sessionKey else current;
      && (k.None? ==> r == table)
      && (k.Some? ==> r == table - {k.value})
  {
    var k := if sessionKey.Some? && sessionKey.value != "" then sessionKey else current;
    if k.None? then table else table - {k.value}
  }

  /** `clear_expired`: deletes exactly the records whose expiry is before `now`. */
  function ClearExpired(table: Table, now: Time): (r: Table)
    ensures forall k :: k in r <==> k in table && !Expired(table[k], now)
    ensures forall k :: k in r ==> r[k] == table[k]
  {
    map k | k in table && !Expired(table[k], now) :: table[k]
  }

  /** After `clear_expired`, every record `load` would accept is still there, and
      nothing already dead survives except records expiring exactly at `now` or
      without an expiry. */
  lemma ClearKeepsLive(table: Table, now: Time, key: string)
    requires key in table
    ensures Live(table[key], now) ==> key in ClearExpired(table, now)
    ensures key in ClearExpired(table, now) && !Live(table[key], now) ==>
      table[key].expireDate.None? || table[key].expireDate.value == now
  {
  }

  /** The boundary between the two expiry tests: a record expiring exactly at `now`
      survives `clear_expired`, yet `load` treats it as expired and starts a fresh
      empty session under another key. */
  lemma ExpiresNowBoundary(table: Table, key: string, now: Time, candidates: seq<string>, expiry: Time)
    requires key in table && table[key].expireDate == Some(now)
    ensures key in ClearExpired(table, now)
    ensures var r := Load(table, Some(key), now, candidates, expiry);
      r.data == map[] && r.key != Some(key)
  {
  }

  /** `load` then `exists`: whichever branch `load` took, its key names a record. */
  lemma LoadKeyExists(table: Table, key: Option<string>, now: Time, candidates: seq<string>, expiry: Time)
    ensures var r := Load(table, key, now, candidates, expiry);
      r.key.Some? ==> Exists(r.table, r.key.value)
  {
  }

  /** Saving then loading before expiry returns the saved data. */
  lemma SaveThenLoad(table: Table, key: string, data: SessionData, expiry: Time, now: Time,
                     candidates: seq<string>, expiry2: Time)
    requires now < expiry
    ensures var t := Save(table, key, data, expiry, false).value;
      Load(t, Some(key), now, candidates, expiry2) == Loaded(t, Some(key), data)
  {
  }
}

=== FILE: text.dfy ===
/**
  The few Python `str` operations the application relies on, over `seq<char>`:
  `strip()`, `split(sep)`, `lower()` and `int()` of a decimal literal.
  Whitespace and case mapping cover the ASCII and Latin-1 range only, and `int()`
  reads ASCII digits only.
 */
module Text {
  import opened Base

  /** Characters `str.strip()` removes that lie in the Latin-1 range. */
  predicate IsSpace(c: char) {
    var n := c as int;
    n == 32 || 9 <= n <= 13 || 28 <= n <= 31 || n == 0x85 || n == 0xA0
  }

  /** `s.lstrip()`: drops leading whitespace. */
  function TrimStart(s: string): string
    decreases |s|
  {
    if |s| > 0 && IsSpace(s[0]) then TrimStart(s[1..]) else s
  }

  /** `s.rstrip()`: drops trailing whitespace. */
  function TrimEnd(s: string): string
    decreases |s|
  {
    if |s| > 0 && IsSpace(s[|s| - 1]) then TrimEnd(s[..|s| - 1]) else s
  }

  /** `lstrip` keeps the longest suffix that does not start with whitespace. */
  lemma {:induction false} TrimStartSpec(s: string)
    ensures var r := TrimStart(s);
      && |r| <= |s| && r == s[|s| - |r|..]
      && (r == [] || !IsSpace(r[0]))
      && forall i :: 0 <= i < |s| - |r| ==> IsSpace(s[i])
    decreases |s|
  {
    if |s| > 0 && IsSpace(s[0]) {
      TrimStartSpec(s[1..]);
    }
  }

  /** `rstrip` keeps the longest prefix that does not end with whitespace. */
  lemma {:induction false} TrimEndSpec(s: string)
    ensures var r := TrimEnd(s);
      && |r| <= |s| && r == s[..|r|]
      && (r == [] || !IsSpace(r[|r| - 1]))
      && forall i :: |r| <= i < |s| ==> IsSpace(s[i])
    decreases |s|
  {
    if |s| > 0 && IsSpace(s[|s| - 1]) {
      TrimEndSpec(s[..|s| - 1]);
    }
  }

  /** `s.strip()`. */
  function Strip(s: string): string {
    TrimEnd(TrimStart(s))
  }

  /** `s.strip()` is empty exactly when every character of `s` is whitespace. */
  lemma StripEmptyIffBlank(s: string)
    ensures Strip(s) == "" <==> forall i :: 0 <= i < |s| ==> IsSpace(s[i])
  {
    var t := TrimStart(s);
    TrimStartSpec(s);
    TrimEndSpec(t);
    if Strip(s) == "" {
      assert TrimEnd(t) == "";
      assert |t| == 0;
    }
  }

  /** A string with no whitespace at either end is its own strip. */
  lemma StripNoop(s: string)
    requires s == [] || (!IsSpace(s[0]) && !IsSpace(s[|s| - 1]))
    ensures Strip(s) == s
  {
  }

  /** Position of the first occurrence of `c`, as `s.index(c)`. */
  function IndexOf(s: string, c: char): (i: nat)
    requires c in s
    ensures i < |s| && s[i] == c && c !in s[..i]
  {
    if s[0] == c then 0
    else
      var j := IndexOf(s[1..], c);
      assert s[..j + 1] == [s[0]] + s[1..][..j];
      j + 1
  }

  /** `sep.join(parts)`. */
  function Join(parts: seq<string>, sep: char): string
    requires |parts| > 0
  {
    if |parts| == 1 then parts[0] else parts[0] + [sep] + Join(parts[1..], sep)
  }

  /** `s.split(sep)` for a one-character separator: never empty, no part holds `sep`,
      and joining the parts back with `sep` gives `s`. */
  function Split(s: string, sep: char): (parts: seq<string>)
    ensures |parts| > 0
    ensures forall k :: 0 <= k < |parts| ==> sep !in parts[k]
    ensures Join(parts, sep) == s
    decreases |s|
  {
    if sep !in s then [s]
    else
      var i := IndexOf(s, sep);
      var rest := Split(s[i + 1..], sep);
      assert s == s[..i] + [sep] + s[i + 1..];
      [s[..i]] + rest
  }

  /** Splitting a join of separator-free parts recovers the parts. */
  lemma {:induction false} SplitJoin(parts: seq<string>, sep: char)
    requires |parts| > 0
    requires forall k :: 0 <= k < |parts| ==> sep !in parts[k]
    ensures Split(Join(parts, sep), sep) == parts
    decreases |parts|
  {
    if |parts| > 1 {
      var s := Join(parts, sep);
      var tail := Join(parts[1..], sep);
      assert s == parts[0] + [sep] + tail;
      assert s[|parts[0]|] == sep;
      assert s[..|parts[0]|] == parts[0];
      assert sep in s;
      var i := IndexOf(s, sep);
      assert s[i + 1..] == tail;
      SplitJoin(parts[1..], sep);
    }
  }

  /** `c.lower()` for the upper-case letters of ASCII and Latin-1 (`A`-`Z`, and U+00C0
      to U+00DE without the sign U+00D7); other characters are unchanged. */
  function LowerChar(c: char): char {
    if 'A' <= c <= 'Z' || ('\U{C0}' <= c <= '\U{DE}' && c != '\U{D7}') then (c as int + 32) as char else c
  }

  /** `s.lower()`. */
  function Lower(s: string): (r: string)
    ensures |r| == |s|
    ensures forall i :: 0 <= i < |s| ==> r[i] == LowerChar(s[i])
  {
    seq(|s|, i requires 0 <= i < |s| => LowerChar(s[i]))
  }

  /** Lower-casing twice is lower-casing once. */
  lemma LowerIdempotent(s: string)
    ensures Lower(Lower(s)) == Lower(s)
  {
  }

  predicate IsDigit(c: char) {
    '0' <= c <= '9'
  }

  function DigitOf(c: char): nat
    requires IsDigit(c)
  {
    c as int - '0' as int
  }

  function DigitChar(d: nat): (c: char)
    requires d < 10
    ensures IsDigit(c) && DigitOf(c) == d
  {
    ('0' as int + d) as char
  }

  /** The value of the digit part of a Python integer literal: digits, with single
      underscores allowed between two digits; None for anything else. */
  function DigitsValue(s: string): (r: Option<nat>)
    ensures r.Some? ==> |s| > 0 && IsDigit(s[0]) && IsDigit(s[|s| - 1])
    decreases |s|
  {
    if |s| == 0 || !IsDigit(s[|s| - 1]) then None
    else if |s| == 1 then Some(DigitOf(s[0]))
    else
      var d := DigitOf(s[|s| - 1]);
      var front := if s[|s| - 2] == '_' then s[..|s| - 2] else s[..|s| - 1];
      match DigitsValue(front)
      case None => None
      case Some(v) => Some(10 * v + d)
  }

  /** Python's `int(s)` in base 10: surrounding whitespace, an optional sign, then
      the digits; `None` where Python raises ValueError. */
  function ParseInt(s: string): Option<int> {
    SignedValue(Strip(s))
  }

  /** An optional sign, then the digits. */
  function SignedValue(t: string): Option<int> {
    var signed := |t| > 0 && (t[0] == '+' || t[0] == '-');
    match DigitsValue(if signed then t[1..] else t)
    case None => None
    case Some(v) => var n: int := v; Some(if signed && t[0] == '-' then -n else n)
  }

  /** Decimal rendering of a natural number, as `str(n)`. */
  function ShowNat(n: nat): (s: string)
    ensures |s| > 0 && forall i :: 0 <= i < |s| ==> IsDigit(s[i])
  {
    if n < 10 then [DigitChar(n)] else ShowNat(n / 10) + [DigitChar(n % 10)]
  }

  /** Decimal rendering of an integer, as `str(n)`. */
  function ShowInt(n: int): string {
    if n < 0 then "-" + ShowNat(-n) else ShowNat(n)
  }

  lemma {:induction false} ShowNatValue(n: nat)
    ensures DigitsValue(ShowNat(n)) == Some(n)
  {
    var s := ShowNat(n);
    if n >= 10 {
      ShowNatValue(n / 10);
      assert s[..|s| - 1] == ShowNat(n / 10);
    }
  }

  /** `int()` of a digit string. */
  lemma ParseDigits(t: string, v: nat)
    requires DigitsValue(t) == Some(v)
    ensures ParseInt(t) == Some(v as int)
  {
    assert !IsSpace(t[0]) && !IsSpace(t[|t| - 1]) && t[0] != '+' && t[0] != '-';
    StripNoop(t);
  }

  /** `int()` of a digit string behind a minus sign. */
  lemma ParseNegatedDigits(t: string, v: nat)
    requires DigitsValue(t) == Some(v)
    ensures ParseInt("-" + t) == Some(-(v as int))
  {
    var m := "-" + t;
    assert m[0] == '-' && !IsSpace(m[0]);
    assert m[|m| - 1] == t[|t| - 1] && !IsSpace(m[|m| - 1]);
    StripNoop(m);
    assert m[1..] == t;
  }

  /** `int(str(n)) == n`. */
  lemma ParseShowInt(n: int)
    ensures ParseInt(ShowInt(n)) == Some(n)
  {
    var k: nat := if n < 0 then -n else n;
    ShowNatValue(k);
    if n < 0 {
      ParseNegatedDigits(ShowNat(k), k);
    } else {
      ParseDigits(ShowNat(k), k);
    }
  }
}

=== FILE: tickets.dfy ===
/**
  Support tickets (movies/mongo_access.py). A ticket is looked up by its subject,
  which is not unique: responding and closing act on the first ticket with the
  subject only.
 */
module Tickets {
  import opened Base
  import opened Documents

  function FindTicket(tickets: seq<Ticket>, subject: string): Option<nat> {
    FirstMatch(tickets, (t: Ticket) => t.subject == subject)
  }

  /** `create_support_ticket`: appends an open ticket without responses and
      returns its id (its position here), or nothing when the store is disabled. */
  function CreateSupportTicket(db: Db, username: string, email: string, subject: string,
                               message: string, now: Time): (r: (Db, Option<nat>))
    ensures r.1.None? <==> !db.enabled
    ensures r.1.None? ==> r.0 == db
    ensures r.0 == db.(tickets := r.0.tickets)
    ensures r.1.Some? ==>
      && r.1.value == |db.tickets| && |r.0.tickets| == |db.tickets| + 1
      && r.0.tickets[..|db.tickets|] == db.tickets
      && var t := r.0.tickets[r.1.value];
      && t.status == Open && t.responses == []
      && t.username == username && t.email == email && t.subject == subject && t.message == message
      && t.createdAt == now
  {
    if !db.enabled then (db, None)
    else (db.(tickets := db.tickets + [Ticket(username, email, subject, message, now, Open, [])]), Some(|db.tickets|))
  }

  /** `add_ticket_response`: `$push` of the response and `$set` of status
      in_progress on the first ticket with the subject; true iff it was modified. */
  function AddTicketResponse(db: Db, subject: string, text: string, admin: string, now: Time): (r: (Db, bool))
    ensures r.0 == db.(tickets := r.0.tickets)
    ensures !r.1 ==> r.0 == db
    ensures r.1 <==> db.enabled && exists i :: 0 <= i < |db.tickets| && db.tickets[i].subject == subject
    ensures |r.0.tickets| == |db.tickets|
    ensures r.1 ==> var i := FindTicket(db.tickets, subject).value;
      && r.0.tickets[i].responses == db.tickets[i].responses + [TicketResponse(admin, text, now)]
      && r.0.tickets[i].status == InProgress
      && forall j :: 0 <= j < |db.tickets| && j != i ==> r.0.tickets[j] == db.tickets[j]
  {
    if !db.enabled then (db, false)
    else
      match FindTicket(db.tickets, subject)
      case None => (db, false)
      case Some(i) =>
        var t := db.tickets[i];
        var t' := t.(responses := t.responses + [TicketResponse(admin, text, now)], status := InProgress);
        (db.(tickets := db.tickets[i := t']), true)
  }

  /** `close_support_ticket`: `$set` of status closed on the first ticket with the
      subject; true iff that changed the ticket. */
  function CloseSupportTicket(db: Db, subject: string): (r: (Db, bool))
    ensures r.0 == db.(tickets := r.0.tickets)
    ensures !r.1 ==> r.0 == db
    ensures r.1 <==> && db.enabled && FindTicket(db.tickets, subject).Some?
                     && db.tickets[FindTicket(db.tickets, subject).value].status != Closed
    ensures r.1 ==> var i := FindTicket(db.tickets, subject).value;
      && |r.0.tickets| == |db.tickets|
      && r.0.tickets[i].status == Closed
      && forall j :: 0 <= j < |db.tickets| && j != i ==> r.0.tickets[j] == db.tickets[j]
  {
    if !db.enabled then (db, false)
    else
      match FindTicket(db.tickets, subject)
      case None => (db, false)
      case Some(i) =>
        if db.tickets[i].status == Closed then (db, false)
        else (db.(tickets := db.tickets[i := db.tickets[i].(status := Closed)]), true)
  }

  /** A response succeeds iff some ticket has the subject; it appends exactly one
      response to the first such ticket and moves it to in_progress (whatever its
      status was), and every other ticket, including later ones with the same
      subject, is unchanged. */
  lemma RespondAppendsOne(db: Db, subject: string, text: string, admin: string, now: Time)
    requires db.enabled
    ensures var r := AddTicketResponse(db, subject, text, admin, now);
      && (r.1 <==> exists i :: 0 <= i < |db.tickets| && db.tickets[i].subject == subject)
      && |r.0.tickets| == |db.tickets|
      && (r.1 ==>
            var i := FindTicket(db.tickets, subject).value;
            && r.0.tickets[i].responses == db.tickets[i].responses + [TicketResponse(admin, text, now)]
            && r.0.tickets[i].status == InProgress
            && r.0.tickets[i].subject == subject
            && r.0.tickets[i].username == db.tickets[i].username
            && forall j :: 0 <= j < |db.tickets| && j != i ==> r.0.tickets[j] == db.tickets[j])
  {
  }

  /** Closing sets the first matching ticket to closed and touches nothing else; it
      reports success only when the ticket was not closed already. */
  lemma CloseSetsClosed(db: Db, subject: string)
    requires db.enabled
    ensures var r := CloseSupportTicket(db, subject);
      && |r.0.tickets| == |db.tickets|
      && (r.1 <==> FindTicket(db.tickets, subject).Some? &&
                   db.tickets[FindTicket(db.tickets, subject).value].status != Closed)
      && (FindTicket(db.tickets, subject).Some? ==>
            var i := FindTicket(db.tickets, subject).value;
            && r.0.tickets[i] == db.tickets[i].(status := Closed)
            && forall j :: 0 <= j < |db.tickets| && j != i ==> r.0.tickets[j] == db.tickets[j])
  {
  }

  /** A second close of the same subject reports failure and changes nothing. */
  lemma CloseTwiceFails(db: Db, subject: string)
    ensures var once := CloseSupportTicket(db, subject).0;
      CloseSupportTicket(once, subject) == (once, false)
  {
    var once := CloseSupportTicket(db, subject).0;
    if db.enabled && FindTicket(db.tickets, subject).Some? {
      FirstMatchAgrees(once.tickets, db.tickets, (t: Ticket) => t.subject == subject);
    }
  }

  /** A ticket behind an earlier one with the same subject can never be answered. */
  lemma RespondShadowsDuplicates(db: Db, subject: string, text: string, admin: string, now: Time, j: nat)
    requires j < |db.tickets| && db.tickets[j].subject == subject
    requires exists i :: 0 <= i < j && db.tickets[i].subject == subject
    ensures AddTicketResponse(db, subject, text, admin, now).0.tickets[j] == db.tickets[j]
  {
  }
}

=== FILE: users.dfy ===
/**
  The user registry of accounts/mongo_users.py: users keyed by lower-cased email
  and by username, authenticated against a stored password hash. The hash
  function (PBKDF2 in the application) is a parameter: any deterministic function.
 */
module Users {
  import opened Base
  import opened Text
  import opened Documents

  type Hasher = string -> string

  datatype User = User(
    username: string,
    email: string,
    passwordHash: string,
    createdAt: Time,
    updatedAt: Time,
    isActive: bool,
    isAdmin: bool)

  /** The users collection; `reachable` is false when `get_user_db()` gives None. */
  datatype UserStore = UserStore(reachable: bool, users: seq<User>)

  /** `hash_password`. */
  function HashPassword(h: Hasher, password: string): string {
    h(password)
  }

  /** `verify_password`. */
  function VerifyPassword(h: Hasher, password: string, hashed: string): bool {
    HashPassword(h, password) == hashed
  }

  /** The registry invariant `create_user` maintains: emails are stored lower-cased,
      and no two users share an email or a username. */
  predicate Registry(users: seq<User>) {
    && (forall i :: 0 <= i < |users| ==> Lower(users[i].email) == users[i].email)
    && (forall i, j :: 0 <= i < j < |users| ==> users[i].email != users[j].email)
    && (forall i, j :: 0 <= i < j < |users| ==> users[i].username != users[j].username)
  }

  function FindByEmail(users: seq<User>, email: string): Option<nat> {
    FirstMatch(users, (u: User) => u.email == Lower(email))
  }

  function FindByUsername(users: seq<User>, username: string): Option<nat> {
    FirstMatch(users, (u: User) => u.username == username)
  }

  /** `user_exists`: a case-insensitive email lookup. */
  function UserExists(s: UserStore, email: string): (r: bool)
    ensures r <==> s.reachable && exists i :: 0 <= i < |s.users| && s.users[i].email == Lower(email)
  {
    s.reachable && FindByEmail(s.users, email).Some?
  }

  /** `username_exists`: an exact username lookup. */
  function UsernameExists(s: UserStore, username: string): (r: bool)
    ensures r <==> s.reachable && exists i :: 0 <= i < |s.users| && s.users[i].username == username
  {
    s.reachable && FindByUsername(s.users, username).Some?
  }

  /** `get_user_by_email`: the first user with the lower-cased email. */
  function GetUserByEmail(s: UserStore, email: string): (r: Option<User>)
    ensures r.Some? <==> UserExists(s, email)
    ensures r.Some? ==> r.value in s.users && r.value.email == Lower(email)
  {
    if !s.reachable then None
    else match FindByEmail(s.users, email)
      case None => None
      case Some(i) => Some(s.users[i])
  }

  /** `get_user_by_username`. */
  function GetUserByUsername(s: UserStore, username: string): (r: Option<User>)
    ensures r.Some? <==> UsernameExists(s, username)
    ensures r.Some? ==> r.value in s.users && r.value.username == username
  {
    if !s.reachable then None
    else match FindByUsername(s.users, username)
      case None => None
      case Some(i) => Some(s.users[i])
  }

  datatype CreateResult = Raised | Duplicate | Created(id: nat)

  /** `create_user`: raises when the store is unreachable, refuses a taken email
      (compared lower-cased) or username, and otherwise inserts an active user. */
  function CreateUser(s: UserStore, h: Hasher, username: string, email: string,
                      password: string, now: Time): (r: (UserStore, CreateResult))
    ensures r.1.Raised? <==> !s.reachable
    ensures r.1.Duplicate? <==> s.reachable && (UserExists(s, email) || UsernameExists(s, username))
    ensures !r.1.Created? ==> r.0 == s
    ensures r.1.Created? ==>
      && r.1.id == |s.users| && r.0.reachable
      && |r.0.users| == |s.users| + 1 && r.0.users[..|s.users|] == s.users
      && var u := r.0.users[r.1.id];
      && u.username == username && u.email == Lower(email)
      && u.passwordHash == HashPassword(h, password) && u.isActive && !u.isAdmin
  {
    if !s.reachable then (s, Raised)
    else if UserExists(s, Lower(email)) || UsernameExists(s, username) then
      LowerIdempotent(email);
      (s, Duplicate)
    else
      LowerIdempotent(email);
      var u := User(username, Lower(email), HashPassword(h, password), now, now, true, false);
      (s.(users := s.users + [u]), Created(|s.users|))
  }

  /** `authenticate_user`: the first active user with the lower-cased email, if the
      password verifies against its hash. */
  function AuthenticateUser(s: UserStore, h: Hasher, email: string, password: string): (r: Option<User>)
    ensures r.Some? ==>
      && r.value in s.users && r.value.isActive && r.value.email == Lower(email)
      && VerifyPassword(h, password, r.value.passwordHash)
    ensures !s.reachable ==> r.None?
  {
    if !s.reachable then None
    else match FirstMatch(s.users, (u: User) => u.email == Lower(email) && u.isActive)
      case None => None
      case Some(i) => if VerifyPassword(h, password, s.users[i].passwordHash) then Some(s.users[i]) else None
  }

  /** The `$set` arguments of `update_user`, besides the `updated_at` it always sets. */
  datatype UserUpdate = UserUpdate(
    username: Option<string>,
    email: Option<string>,
    passwordHash: Option<string>,
    isActive: Option<bool>,
    isAdmin: Option<bool>)

  /** `update_user`: `$set` on the first user with the lower-cased email; true iff the
      document changed. */
  function UpdateUser(s: UserStore, email: string, u: UserUpdate, now: Time): (r: (UserStore, bool))
    ensures r.0.reachable == s.reachable && |r.0.users| == |s.users|
    ensures !r.1 ==> r.0 == s
    ensures r.1 ==> UserExists(s, email)
  {
    if !s.reachable then (s, false)
    else match FindByEmail(s.users, email)
      case None => (s, false)
      case Some(i) =>
        var old_ := s.users[i];
        var new_ := old_.(username := Pick(u.username, old_.username), email := Pick(u.email, old_.email),
                          passwordHash := Pick(u.passwordHash, old_.passwordHash),
                          isActive := Pick(u.isActive, old_.isActive), isAdmin := Pick(u.isAdmin, old_.isAdmin),
                          updatedAt := now);
        if new_ == old_ then (s, false) else (s.(users := s.users[i := new_]), true)
  }

  /** `delete_user`: deletes the first user with the lower-cased email. */
  function DeleteUser(s: UserStore, email: string): (r: (UserStore, bool))
    ensures r.1 <==> UserExists(s, email)
    ensures !r.1 ==> r.0 == s
    ensures r.1 ==> r.0.reachable && |r.0.users| == |s.users| - 1
    ensures r.1 ==> var i := FindByEmail(s.users, email).value;
      forall j :: 0 <= j < |r.0.users| ==> r.0.users[j] == s.users[if j < i then j else j + 1]
  {
    if !s.reachable then (s, false)
    else match FindByEmail(s.users, email)
      case None => (s, false)
      case Some(i) => (s.(users := RemoveAt(s.users, i)), true)
  }

  /** Every email lookup ignores the case of its argument. */
  lemma EmailLookupsIgnoreCase(s: UserStore, e1: string, e2: string)
    requires Lower(e1) == Lower(e2)
    ensures UserExists(s, e1) == UserExists(s, e2)
    ensures GetUserByEmail(s, e1) == GetUserByEmail(s, e2)
    ensures DeleteUser(s, e1) == DeleteUser(s, e2)
    ensures forall h: Hasher, p: string :: AuthenticateUser(s, h, e1, p) == AuthenticateUser(s, h, e2, p)
  {
    assert ((u: User) => u.email == Lower(e1)) == ((u: User) => u.email == Lower(e2));
    assert ((u: User) => u.email == Lower(e1) && u.isActive) == ((u: User) => u.email == Lower(e2) && u.isActive);
  }

  /** `create_user` keeps the registry invariant. */
  lemma CreateKeepsRegistry(s: UserStore, h: Hasher, username: string, email: string, password: string, now: Time)
    requires Registry(s.users)
    ensures Registry(CreateUser(s, h, username, email, password, now).0.users)
  {
    var r := CreateUser(s, h, username, email, password, now);
    if r.1.Created? {
      LowerIdempotent(email);
    }
  }

  /** With the registry invariant, authentication succeeds exactly for an active
      user with the lower-cased email whose stored hash the password verifies. */
  lemma AuthenticateExactly(s: UserStore, h: Hasher, email: string, password: string)
    requires s.reachable && Registry(s.users)
    ensures AuthenticateUser(s, h, email, password).Some? <==>
      exists i :: 0 <= i < |s.users| && s.users[i].email == Lower(email) && s.users[i].isActive
        && VerifyPassword(h, password, s.users[i].passwordHash)
  {
    var p := (u: User) => u.email == Lower(email) && u.isActive;
    forall i | 0 <= i < |s.users| && s.users[i].email == Lower(email) && s.users[i].isActive
        && VerifyPassword(h, password, s.users[i].passwordHash)
      ensures AuthenticateUser(s, h, email, password).Some?
    {
      assert p(s.users[i]);
      var k := FirstMatch(s.users, p).value;
      assert k == i;
    }
  }

  /** Registering and then logging in with the same password and the email in any
      case finds the new user. */
  lemma CreateThenAuthenticate(s: UserStore, h: Hasher, username: string, email: string, email2: string,
                               password: string, now: Time)
    requires Registry(s.users) && Lower(email2) == Lower(email)
    ensures var r := CreateUser(s, h, username, email, password, now);
      r.1.Created? ==> AuthenticateUser(r.0, h, email2, password) == Some(r.0.users[r.1.id])
  {
    var r := CreateUser(s, h, username, email, password, now);
    if r.1.Created? {
      LowerIdempotent(email);
      var p := (u: User) => u.email == Lower(email2) && u.isActive;
      assert p(r.0.users[|s.users|]);
      assert FirstMatch(r.0.users, p) == Some(|s.users|);
    }
  }

  /** With the registry invariant, deleting a user leaves no user with that email
      and keeps the invariant. */
  lemma DeleteRemovesUser(s: UserStore, email: string)
    requires Registry(s.users)
    ensures var r := DeleteUser(s, email).0;
      Registry(r.users) && !UserExists(r, email)
  {
    var r := DeleteUser(s, email);
    if r.1 {
      var i := FindByEmail(s.users, email).value;
      var w := s.users;
      var w' := r.0.users;
      forall j | 0 <= j < |w'|
        ensures w'[j].email != Lower(email)
      {
        if j >= i {
          assert w'[j] == w[j + 1];
        }
      }
    }
  }

  /** With the store unreachable, lookups say no, authentication fails, and
      `create_user` raises. */
  lemma UnreachableStore(s: UserStore, h: Hasher, username: string, email: string, password: string, now: Time)
    requires !s.reachable
    ensures !UserExists(s, email) && !UsernameExists(s, username)
    ensures AuthenticateUser(s, h, email, password).None?
    ensures CreateUser(s, h, username, email, password, now) == (s, Raised)
  {
  }
}

=== FILE: views.dfy ===
/**
  The decision logic of the request handlers in movies/views.py that drive the
  store: the admin check, the favourite toggle, the review submission of the
  movie page, marking notifications read and the ticket-management actions.
  Responses are reduced to the outcome a handler picks; rendering, messages and
  redirects are not modelled.
 */
module Views {
  import opened Base
  import opened Text
  import opened Documents
  import opened Reviews
  import opened Watchlist
  import opened Notifications
  import opened Tickets
  import opened ReviewForms
  import Users

  datatype HttpMethod = Get | Post | OtherMethod

  /** What a handler reads from a request: its method, the Django-authenticated
      user's name (None for an anonymous user) and the session's `username`. */
  datatype Request = Request(verb: HttpMethod, authUser: Option<string>, sessionUser: Option<string>)

  /** The username a page acts for: the authenticated user's, else the session's. */
  function PageUser(req: Request): Option<string> {
    if req.authUser.Some? then req.authUser else req.sessionUser
  }

  /** The username an AJAX endpoint acts for; None means it answers 401. */
  function EndpointUser(req: Request): (u: Option<string>)
    ensures u.None? <==> req.authUser.None? && !Truthy(req.sessionUser)
  {
    if req.authUser.Some? then req.authUser
    else if Truthy(req.sessionUser) then req.sessionUser
    else None
  }

  /** `get_movie_by_slug`; with the store disabled the lookup finds nothing. */
  function LookupMovie(db: Db, slug: string): (m: Option<Movie>)
    ensures m.Some? ==> db.enabled && m.value in db.movies && m.value.slug == slug
    ensures m.None? <==> !db.enabled || forall k :: 0 <= k < |db.movies| ==> db.movies[k].slug != slug
  {
    if !db.enabled then None
    else match FindMovie(db.movies, slug)
      case None => None
      case Some(j) => Some(db.movies[j])
  }

  /** The failure of the relational fallback lookup. */
  datatype LookupError = FieldError

  /** `get_movie_by_slug` as the code stands: when the movies collection has no
      document (or the store is disabled) it falls back to `Movie.objects.get(slug=...)`,
      and the relational `Movie` model has no `slug` field, so Django raises
      FieldError, which only `Movie.DoesNotExist` handlers would have turned into None. */
  function LookupMovieAsWritten(db: Db, slug: string): (r: Result<Movie, LookupError>)
    ensures r.Ok? <==> LookupMovie(db, slug).Some?
    ensures r.Ok? ==> r.value == LookupMovie(db, slug).value
  {
    match LookupMovie(db, slug)
    case Some(m) => Ok(m)
    case None => Err(FieldError)
  }

  /** For a slug no movie has, the lookup as written raises where the corrected one
      reports "not found", which `toggle_favorite` turns into a 404. */
  lemma UnknownSlugRaises(db: Db, req: Request, slug: string, now: Time)
    requires db.enabled && forall k :: 0 <= k < |db.movies| ==> db.movies[k].slug != slug
    requires req.verb == Post && EndpointUser(req).Some?
    ensures LookupMovieAsWritten(db, slug) == Err(FieldError)
    ensures ToggleFavorite(db, req, slug, now) == (db, FavMovieNotFound)
  {
  }

  // ---------------------------------------------------------------------------
  // is_admin

  /** `is_admin`: the acting user's first user document has `is_admin` set. */
  predicate IsAdmin(db: Db, users: seq<Users.User>, req: Request)
    ensures IsAdmin(db, users, req) ==>
      && db.enabled && Truthy(PageUser(req))
      && exists i :: 0 <= i < |users| && users[i].username == PageUser(req).value && users[i].isAdmin
  {
    && db.enabled
    && Truthy(PageUser(req))
    && match Users.FindByUsername(users, PageUser(req).value)
       case None => false
       case Some(i) => users[i].isAdmin
  }

  /** With unique usernames, the acting user is an admin exactly when some user
      document with that name has the admin flag. */
  lemma IsAdminExactly(db: Db, users: seq<Users.User>, req: Request)
    requires Users.Registry(users)
    ensures IsAdmin(db, users, req) <==>
      db.enabled && Truthy(PageUser(req)) &&
      exists i :: 0 <= i < |users| && users[i].username == PageUser(req).value && users[i].isAdmin
  {
    if db.enabled && Truthy(PageUser(req)) {
      var name := PageUser(req).value;
      forall i | 0 <= i < |users| && users[i].username == name && users[i].isAdmin
        ensures IsAdmin(db, users, req)
      {
        var k := Users.FindByUsername(users, name).value;
        assert k == i;
      }
    }
  }

  // ---------------------------------------------------------------------------
  // toggle_favorite

  datatype FavoriteReply =
    | FavMethodNotAllowed
    | FavNotAuthenticated
    | FavMovieNotFound
    | FavRemoved
    | FavAdded
    | FavAddFailed

  /** The HTTP status of each reply. */
  function FavoriteStatus(r: FavoriteReply): int {
    match r
    case FavMethodNotAllowed => 405
    case FavNotAuthenticated => 401
    case FavMovieNotFound => 404
    case FavRemoved => 200
    case FavAdded => 200
    case FavAddFailed => 500
  }

  /** `toggle_favorite`. */
  function ToggleFavorite(db: Db, req: Request, slug: string, now: Time): (r: (Db, FavoriteReply))
    ensures r.0 == db.(watchlists := r.0.watchlists)
    ensures FavoriteStatus(r.1) != 200 ==> r.0 == db
  {
    if req.verb != Post then (db, FavMethodNotAllowed)
    else match EndpointUser(req)
      case None => (db, FavNotAuthenticated)
      case Some(u) =>
        match LookupMovie(db, slug)
        case None => (db, FavMovieNotFound)
        case Some(movie) =>
          if IsInWatchlist(db, u, slug) then
            (RemoveFromWatchlist(db, u, slug).0, FavRemoved)
          else
            var added := AddToWatchlist(db, u, slug, movie.title, now);
            if added.1 then (added.0, FavAdded) else (db, FavAddFailed)
  }

  /** The rejections: anything but POST is 405, no user is 401, an unknown movie
      is 404, and none of them touches the watchlist. */
  lemma ToggleRejections(db: Db, req: Request, slug: string, now: Time)
    ensures req.verb != Post ==> ToggleFavorite(db, req, slug, now) == (db, FavMethodNotAllowed)
    ensures req.verb == Post && EndpointUser(req).None? ==>
      ToggleFavorite(db, req, slug, now) == (db, FavNotAuthenticated)
    ensures req.verb == Post && EndpointUser(req).Some? && LookupMovie(db, slug).None? ==>
      ToggleFavorite(db, req, slug, now) == (db, FavMovieNotFound)
  {
  }

  /** For a known movie, the toggle flips membership of the pair: it reports
      `removed` exactly when the pair was on the list, `added` otherwise, never
      fails, and keeps the watchlist free of duplicates. */
  lemma ToggleFlips(db: Db, req: Request, slug: string, now: Time)
    requires req.verb == Post && EndpointUser(req).Some? && LookupMovie(db, slug).Some?
    requires UniqueEntries(db.watchlists)
    ensures var u := EndpointUser(req).value;
      var r := ToggleFavorite(db, req, slug, now);
      && (r.1 == FavRemoved <==> IsInWatchlist(db, u, slug))
      && (r.1 == FavAdded <==> !IsInWatchlist(db, u, slug))
      && IsInWatchlist(r.0, u, slug) == !IsInWatchlist(db, u, slug)
      && UniqueEntries(r.0.watchlists)
  {
    var u := EndpointUser(req).value;
    if IsInWatchlist(db, u, slug) {
      RemoveClearsPair(db, u, slug);
    } else {
      AddKeepsUnique(db, u, slug, LookupMovie(db, slug).value.title, now);
    }
  }

  // ---------------------------------------------------------------------------
  // movie_detail, POST

  datatype ReviewReply =
    | ReviewMovieNotFound
    | ReviewLoginRequired
    | ReviewInvalid(errors: set<FormError>)
    | ReviewSaved

  /** The fan-out only runs for ratings at or above the threshold. */
  predicate HighRating(rating: int) {
    rating as real >= NotifyThreshold
  }

  /** The view logging of the movie page, for any acting user. */
  function LogPageView(db: Db, req: Request, slug: string, movie: Movie, now: Time): (r: Db)
    ensures r == db.(views := r.views)
  {
    var viewer := PageUser(req);
    if Truthy(viewer) then LogMovieView(db, viewer.value, slug, movie.title, now).0 else db
  }

  /** The store half of a valid submission: upsert, then the fan-out for a high rating. */
  function StoreReview(db: Db, slug: string, movie: Movie, user: string, cd: CleanReview, now: Time): (r: Db)
    ensures r.enabled == db.enabled && r.watchlists == db.watchlists && r.tickets == db.tickets
  {
    var db2 := UpsertReview(db, slug, user, cd.rating as real, cd.title, cd.body, now).0;
    if HighRating(cd.rating) then NotifyWatchlistOwners(db2, slug, movie.title, cd.rating as real, cd.title, now).0
    else db2
  }

  /** A POST to the movie page: 404 for an unknown movie; the view is logged for
      any acting user; without a session username the review is refused; an
      invalid form is re-rendered; otherwise the review is upserted and then, for
      a high rating, the movie's watchlist owners are notified. */
  function SubmitReview(db: Db, req: Request, slug: string, raw: RawReview, now: Time): (r: (Db, ReviewReply))
    ensures r.0.enabled == db.enabled && r.0.watchlists == db.watchlists && r.0.tickets == db.tickets
    ensures r.1 == ReviewMovieNotFound ==> r.0 == db
  {
    match LookupMovie(db, slug)
    case None => (db, ReviewMovieNotFound)
    case Some(movie) =>
      var db1 := LogPageView(db, req, slug, movie, now);
      if !Truthy(req.sessionUser) then (db1, ReviewLoginRequired)
      else match ValidateReview(raw)
        case Err(e) => (db1, ReviewInvalid(e))
        case Ok(cd) => (StoreReview(db1, slug, movie, req.sessionUser.value, cd, now), ReviewSaved)
  }

  /** Without a session username nothing but the view history changes: no review,
      no aggregate and no notification is written. */
  lemma ReviewNeedsSession(db: Db, req: Request, slug: string, raw: RawReview, now: Time)
    requires !Truthy(req.sessionUser)
    ensures var r := SubmitReview(db, req, slug, raw, now);
      && r.1 in {ReviewMovieNotFound, ReviewLoginRequired}
      && r.0.reviews == db.reviews && r.0.movies == db.movies && r.0.notifications == db.notifications
  {
  }

  /** An anonymous POST for a known movie is sent to log in and leaves the store
      exactly as it was. */
  lemma AnonymousPostChangesNothing(db: Db, slug: string, raw: RawReview, now: Time)
    requires LookupMovie(db, slug).Some?
    ensures SubmitReview(db, Request(Post, None, None), slug, raw, now) == (db, ReviewLoginRequired)
  {
  }

  /** The store half stores the cleaned review and brings the movie's aggregates
      up to date. */
  lemma StoreReviewStores(db: Db, slug: string, movie: Movie, user: string, cd: CleanReview, now: Time)
    requires db.enabled && UniqueReviews(db.reviews) && FindMovie(db.movies, slug).Some?
    ensures var after := StoreReview(db, slug, movie, user, cd, now);
      && UniqueReviews(after.reviews)
      && FindReview(after.reviews, slug, user).Some?
      && var rv := after.reviews[FindReview(after.reviews, slug, user).value];
      && rv.rating == cd.rating && rv.title == cd.title && rv.body == cd.body && rv.updatedAt == now
      && MovieSynced(after.movies[FindMovie(db.movies, slug).value], after.reviews)
  {
    var db2 := UpsertReview(db, slug, user, cd.rating as real, cd.title, cd.body, now).0;
    var after := StoreReview(db, slug, movie, user, cd, now);
    assert after.reviews == db2.reviews && after.movies == db2.movies;
    UpsertSyncsAggregate(db, slug, user, cd.rating as real, cd.title, cd.body, now);
    assert TruncateToInt(cd.rating as real) == cd.rating;
  }

  /** A valid submission stores the cleaned review under the session user and
      brings the movie's aggregates up to date. */
  lemma ReviewSavedStores(db: Db, req: Request, slug: string, raw: RawReview, now: Time)
    requires LookupMovie(db, slug).Some? && Truthy(req.sessionUser) && ValidateReview(raw).Ok?
    requires UniqueReviews(db.reviews)
    ensures var r := SubmitReview(db, req, slug, raw, now);
      var cd := ValidateReview(raw).value;
      var user := req.sessionUser.value;
      && r.1 == ReviewSaved
      && UniqueReviews(r.0.reviews)
      && FindReview(r.0.reviews, slug, user).Some?
      && var rv := r.0.reviews[FindReview(r.0.reviews, slug, user).value];
      && rv.rating == cd.rating && rv.title == cd.title && rv.body == cd.body && rv.updatedAt == now
      && MovieSynced(r.0.movies[FindMovie(db.movies, slug).value], r.0.reviews)
  {
    var movie := LookupMovie(db, slug).value;
    var db1 := LogPageView(db, req, slug, movie, now);
    StoreReviewStores(db1, slug, movie, req.sessionUser.value, ValidateReview(raw).value, now);
  }

  /** A valid submission appends notifications only for a rating of 5: one per
      subscriber of the movie, carrying the review's rating and title. */
  lemma ReviewSavedNotifies(db: Db, req: Request, slug: string, raw: RawReview, now: Time)
    requires LookupMovie(db, slug).Some? && Truthy(req.sessionUser) && ValidateReview(raw).Ok?
    ensures var r := SubmitReview(db, req, slug, raw, now);
      var cd := ValidateReview(raw).value;
      var movie := LookupMovie(db, slug).value;
      r.0.notifications == db.notifications +
        (if cd.rating == 5
         then FanoutNotices(Subscribers(db.watchlists, slug), slug, movie.title, 5.0, cd.title, now)
         else [])
  {
    var cd := ValidateReview(raw).value;
    OnlyFiveReachesThreshold(raw);
    if cd.rating == 5 {
      assert HighRating(cd.rating);
    } else {
      assert !HighRating(cd.rating);
    }
  }

  // ---------------------------------------------------------------------------
  // mark_notification_read

  datatype MarkReply =
    | MarkMethodNotAllowed
    | MarkNotAuthenticated
    | MarkUnavailable
    | MarkDone
    | MarkNothingChanged

  /** The notices a call targets: by movie when a slug is given, otherwise by the
      posted `ticket_subject` (empty when missing). */
  function SelectKey(movieSlug: string, ticketSubject: Option<string>): ReadKey {
    if movieSlug != "" then ByMovie(movieSlug)
    else BySubject(if ticketSubject.Some? then ticketSubject.value else "")
  }

  /** `mark_notification_read`. */
  function MarkReadView(db: Db, req: Request, movieSlug: string, ticketSubject: Option<string>): (r: (Db, MarkReply))
    ensures r.0 == db.(notifications := r.0.notifications)
    ensures r.1 != MarkDone ==> r.0.notifications == db.notifications || r.1 == MarkNothingChanged
  {
    if req.verb != Post then (db, MarkMethodNotAllowed)
    else match EndpointUser(req)
      case None => (db, MarkNotAuthenticated)
      case Some(u) =>
        match MarkRead(db, u, SelectKey(movieSlug, ticketSubject))
        case None => (db, MarkUnavailable)
        case Some(m) => (m.0, if m.1 > 0 then MarkDone else MarkNothingChanged)
  }

  /** For an authenticated POST on an enabled store: a non-empty slug targets the
      user's notices for that movie, an empty one the user's support notices for
      the subject; every targeted notice ends up read, every other notice is
      unchanged, and the reply is `ok` exactly when some targeted notice was unread. */
  lemma MarkReadBranch(db: Db, req: Request, movieSlug: string, ticketSubject: Option<string>)
    requires req.verb == Post && EndpointUser(req).Some? && db.enabled
    ensures var u := EndpointUser(req).value;
      var key := if movieSlug != "" then ByMovie(movieSlug)
                 else BySubject(if ticketSubject.Some? then ticketSubject.value else "");
      var r := MarkReadView(db, req, movieSlug, ticketSubject);
      var ns := db.notifications;
      && |r.0.notifications| == |ns|
      && (forall i :: 0 <= i < |ns| && Targets(ns[i], u, key) ==> r.0.notifications[i] == MarkedRead(ns[i]))
      && (forall i :: 0 <= i < |ns| && !Targets(ns[i], u, key) ==> r.0.notifications[i] == ns[i])
      && (r.1 == MarkDone <==> exists i :: 0 <= i < |ns| && Targets(ns[i], u, key) && !ns[i].isRead)
      && (r.1 == MarkDone || r.1 == MarkNothingChanged)
  {
  }

  /** The endpoint's rejections change nothing: 405 for other methods, 401 without
      a user, 500 when the store is disabled. */
  lemma MarkReadRejections(db: Db, req: Request, movieSlug: string, ticketSubject: Option<string>)
    ensures req.verb != Post ==> MarkReadView(db, req, movieSlug, ticketSubject) == (db, MarkMethodNotAllowed)
    ensures req.verb == Post && EndpointUser(req).None? ==>
      MarkReadView(db, req, movieSlug, ticketSubject) == (db, MarkNotAuthenticated)
    ensures req.verb == Post && EndpointUser(req).Some? && !db.enabled ==>
      MarkReadView(db, req, movieSlug, ticketSubject) == (db, MarkUnavailable)
  {
  }

  // ---------------------------------------------------------------------------
  // manage_tickets, POST

  datatype TicketReply =
    | AccessDenied
    | Responded
    | RespondFailed
    | TicketClosed
    | CloseFailed
    | NoAction

  /** The admin name recorded on a response: the session's username, else the
      authenticated user's (empty for an anonymous user). */
  function ResponderName(req: Request): string {
    if Truthy(req.sessionUser) then req.sessionUser.value
    else if req.authUser.Some? then req.authUser.value
    else ""
  }

  /** The respond action: store the response, and only if that succeeded look the
      ticket up again and notify its submitter. */
  function RespondToTicket(db: Db, subject: string, text: string, admin: string, now: Time): (r: (Db, bool))
    ensures r.0 == db.(tickets := r.0.tickets, notifications := r.0.notifications)
    ensures !r.1 ==> r.0 == db
  {
    var added := AddTicketResponse(db, subject, text, admin, now);
    if !added.1 then (db, false)
    else match FindTicket(added.0.tickets, subject)
      case None => (added.0, true)
      case Some(i) => (NotifyUserOnTicketResponse(added.0, added.0.tickets[i].username, subject, text, now).0, true)
  }

  /** `manage_tickets` for a POST with the form fields `action`, `subject` and
      `response_text`. */
  function ManageTickets(db: Db, users: seq<Users.User>, req: Request, action: Option<string>,
                         subject: string, responseText: string, now: Time): (r: (Db, TicketReply))
    ensures r.0 == db.(tickets := r.0.tickets, notifications := r.0.notifications)
    ensures r.1 == AccessDenied || r.1 == RespondFailed || r.1 == CloseFailed || r.1 == NoAction ==> r.0 == db
  {
    if !IsAdmin(db, users, req) then (db, AccessDenied)
    else if req.verb != Post then (db, NoAction)
    else if action == Some("respond") then
      var s := Strip(subject);
      var text := Strip(responseText);
      if s == "" || text == "" then (db, NoAction)
      else
        var responded := RespondToTicket(db, s, text, ResponderName(req), now);
        (responded.0, if responded.1 then Responded else RespondFailed)
    else if action == Some("close") then
      var s := Strip(subject);
      if s == "" then (db, NoAction)
      else
        var closed := CloseSupportTicket(db, s);
        (closed.0, if closed.1 then TicketClosed else CloseFailed)
    else (db, NoAction)
  }

  /** A user who is not an admin is turned away and nothing changes. */
  lemma NonAdminDenied(db: Db, users: seq<Users.User>, req: Request, action: Option<string>,
                       subject: string, responseText: string, now: Time)
    requires !IsAdmin(db, users, req)
    ensures ManageTickets(db, users, req, action, subject, responseText, now) == (db, AccessDenied)
  {
  }

  /** The respond action on an enabled store: it succeeds exactly when a ticket
      has the subject; then the first such ticket gets the response and exactly
      one support notice for its submitter is appended; otherwise nothing changes. */
  lemma RespondToTicketEffects(db: Db, s: string, text: string, admin: string, now: Time)
    requires db.enabled
    ensures var r := RespondToTicket(db, s, text, admin, now);
      && (r.1 <==> exists i :: 0 <= i < |db.tickets| && db.tickets[i].subject == s)
      && (r.1 ==>
            var i := FindTicket(db.tickets, s).value;
            && r.0.tickets[i].responses == db.tickets[i].responses + [TicketResponse(admin, text, now)]
            && r.0.tickets[i].status == InProgress
            && |r.0.notifications| == |db.notifications| + 1
            && r.0.notifications[..|db.notifications|] == db.notifications
            && var n := r.0.notifications[|db.notifications|];
            && n.SupportNotice? && n.username == db.tickets[i].username && n.ticketSubject == s
            && n.message == PreviewMessage(text) && !n.isRead)
  {
    RespondAppendsOne(db, s, text, admin, now);
    var added := AddTicketResponse(db, s, text, admin, now);
    if added.1 {
      assert forall j :: 0 <= j < |db.tickets| ==> added.0.tickets[j].subject == db.tickets[j].subject;
      FirstMatchAgrees(added.0.tickets, db.tickets, (t: Ticket) => t.subject == s);
    }
  }

  /** In ticket management a response notifies the ticket's submitter only when
      it was stored, and blank input does nothing. */
  lemma RespondThenNotify(db: Db, users: seq<Users.User>, req: Request, subject: string,
                          responseText: string, now: Time)
    requires IsAdmin(db, users, req) && req.verb == Post
    ensures var r := ManageTickets(db, users, req, Some("respond"), subject, responseText, now);
      var s := Strip(subject);
      var text := Strip(responseText);
      && (s == "" || text == "" ==> r == (db, NoAction))
      && (r.1 == Responded <==>
            s != "" && text != "" && exists i :: 0 <= i < |db.tickets| && db.tickets[i].subject == s)
      && (r.1 != Responded ==> r.0 == db)
  {
    var s := Strip(subject);
    var text := Strip(responseText);
    if s != "" && text != "" {
      RespondToTicketEffects(db, s, text, ResponderName(req), now);
    }
  }

  /** Closing: with a non-blank subject it reports success exactly when the first
      ticket with that subject existed and was not closed yet. */
  lemma CloseAction(db: Db, users: seq<Users.User>, req: Request, subject: string, responseText: string, now: Time)
    requires IsAdmin(db, users, req) && req.verb == Post
    ensures var r := ManageTickets(db, users, req, Some("close"), subject, responseText, now);
      var s := Strip(subject);
      && (r.1 == TicketClosed <==>
            s != "" && FindTicket(db.tickets, s).Some? && db.tickets[FindTicket(db.tickets, s).value].status != Closed)
      && (r.1 == TicketClosed ==> r.0.tickets[FindTicket(db.tickets, s).value].status == Closed)
  {
    var s := Strip(subject);
    if s != "" {
      CloseSetsClosed(db, s);
    }
  }
}

=== FILE: watchlist.dfy ===
/**
  Watchlist and view history (movies/mongo_access.py): a watchlist is a set of
  (username, movie slug) entries; view history keeps one counter record per
  (username, movie slug).
 */
module Watchlist {
  import opened Base
  import opened Documents

  predicate OnList(e: WatchEntry, username: string, slug: string) {
    e.username == username && e.movieSlug == slug
  }

  /** At most one entry per (username, movie slug). */
  predicate UniqueEntries(entries: seq<WatchEntry>) {
    forall i, j :: 0 <= i < j < |entries| ==>
      !(entries[i].username == entries[j].username && entries[i].movieSlug == entries[j].movieSlug)
  }

  function FindEntry(entries: seq<WatchEntry>, username: string, slug: string): Option<nat> {
    FirstMatch(entries, (e: WatchEntry) => OnList(e, username, slug))
  }

  /** `is_in_watchlist`. */
  function IsInWatchlist(db: Db, username: string, slug: string): (r: bool)
    ensures r <==> db.enabled && exists i :: 0 <= i < |db.watchlists| && OnList(db.watchlists[i], username, slug)
  {
    db.enabled && FindEntry(db.watchlists, username, slug).Some?
  }

  /** `add_to_watchlist`: refuses a duplicate, otherwise appends one favourite entry. */
  function AddToWatchlist(db: Db, username: string, slug: string, title: string, now: Time): (r: (Db, bool))
    ensures r.1 <==> db.enabled && !IsInWatchlist(db, username, slug)
    ensures !r.1 ==> r.0 == db
    ensures r.1 ==> r.0 == db.(watchlists := db.watchlists + [WatchEntry(username, slug, title, now, true)])
  {
    if !db.enabled || FindEntry(db.watchlists, username, slug).Some? then (db, false)
    else (db.(watchlists := db.watchlists + [WatchEntry(username, slug, title, now, true)]), true)
  }

  /** `remove_from_watchlist`: deletes the first matching entry; true iff one was deleted. */
  function RemoveFromWatchlist(db: Db, username: string, slug: string): (r: (Db, bool))
    ensures r.1 <==> IsInWatchlist(db, username, slug)
    ensures !r.1 ==> r.0 == db
    ensures r.1 ==> |r.0.watchlists| == |db.watchlists| - 1
    ensures r.0 == db.(watchlists := r.0.watchlists)
  {
    if !db.enabled then (db, false)
    else
      match FindEntry(db.watchlists, username, slug)
      case None => (db, false)
      case Some(i) => (db.(watchlists := RemoveAt(db.watchlists, i)), true)
  }

  /** Adding keeps entries unique, and afterwards the pair is on the list. */
  lemma AddKeepsUnique(db: Db, username: string, slug: string, title: string, now: Time)
    requires UniqueEntries(db.watchlists)
    ensures var r := AddToWatchlist(db, username, slug, title, now);
      && UniqueEntries(r.0.watchlists)
      && (db.enabled ==> IsInWatchlist(r.0, username, slug))
  {
    var r := AddToWatchlist(db, username, slug, title, now);
    if r.1 {
      var n := |db.watchlists|;
      assert OnList(r.0.watchlists[n], username, slug);
    }
  }

  /** A second add of the same pair is refused and changes nothing. */
  lemma DuplicateAddRefused(db: Db, username: string, slug: string, title: string, title2: string,
                            now: Time, later: Time)
    requires db.enabled
    ensures var once := AddToWatchlist(db, username, slug, title, now);
      AddToWatchlist(once.0, username, slug, title2, later) == (once.0, false)
  {
    var once := AddToWatchlist(db, username, slug, title, now);
    if once.1 {
      var n := |db.watchlists|;
      assert OnList(once.0.watchlists[n], username, slug);
    }
  }

  /** With unique entries, removing takes the pair off the list, deletes nothing
      else, and keeps entries unique. */
  lemma {:induction false} RemoveClearsPair(db: Db, username: string, slug: string)
    requires UniqueEntries(db.watchlists)
    ensures var r := RemoveFromWatchlist(db, username, slug);
      && UniqueEntries(r.0.watchlists)
      && !IsInWatchlist(r.0, username, slug)
      && forall e :: e in db.watchlists && !OnList(e, username, slug) ==> e in r.0.watchlists
  {
    var r := RemoveFromWatchlist(db, username, slug);
    if r.1 {
      var i := FindEntry(db.watchlists, username, slug).value;
      var w := db.watchlists;
      var w' := r.0.watchlists;
      forall j | 0 <= j < |w'|
        ensures !OnList(w'[j], username, slug)
      {
        if j >= i {
          assert w'[j] == w[j + 1];
          assert !(w[i].username == w[j + 1].username && w[i].movieSlug == w[j + 1].movieSlug);
        }
      }
      forall e | e in w && !OnList(e, username, slug)
        ensures e in w'
      {
        var k :| 0 <= k < |w| && w[k] == e;
        if k < i { assert w'[k] == e; } else { assert k > i; assert w'[k - 1] == e; }
      }
    }
  }

  // ---------------------------------------------------------------------------
  // View history

  predicate IsViewOf(v: ViewRecord, username: string, slug: string) {
    v.username == username && v.movieSlug == slug
  }

  /** At most one view record per (username, movie slug). */
  predicate UniqueViews(views: seq<ViewRecord>) {
    forall i, j :: 0 <= i < j < |views| ==>
      !(views[i].username == views[j].username && views[i].movieSlug == views[j].movieSlug)
  }

  function FindView(views: seq<ViewRecord>, username: string, slug: string): Option<nat> {
    FirstMatch(views, (v: ViewRecord) => IsViewOf(v, username, slug))
  }

  /** `log_movie_view`: an upsert that `$set`s the title and last view time,
      `$inc`s the counter (from 0 on insert) and sets first_viewed_at only on insert. */
  function LogMovieView(db: Db, username: string, slug: string, title: string, now: Time): (r: (Db, bool))
    ensures r.1 <==> db.enabled
    ensures !db.enabled ==> r.0 == db
    ensures r.0 == db.(views := r.0.views)
  {
    if !db.enabled then (db, false)
    else
      match FindView(db.views, username, slug)
      case Some(i) =>
        var v := db.views[i];
        (db.(views := db.views[i := v.(movieTitle := title, lastViewedAt := now, viewCount := v.viewCount + 1)]), true)
      case None =>
        (db.(views := db.views + [ViewRecord(username, slug, title, now, now, 1)]), true)
  }

  /** One record per pair survives the call, its counter grows by exactly one, its
      last-view time is `now`, its first-view time is `now` only if it was created,
      and no other record changes. */
  lemma {:induction false} LogViewCounts(db: Db, username: string, slug: string, title: string, now: Time)
    requires db.enabled && UniqueViews(db.views)
    ensures var after := LogMovieView(db, username, slug, title, now).0.views;
      && UniqueViews(after)
      && FindView(after, username, slug).Some?
      && var k := FindView(after, username, slug).value;
      && after[k].lastViewedAt == now
      && after[k].movieTitle == title
      && (FindView(db.views, username, slug).Some? ==>
            var old_ := db.views[FindView(db.views, username, slug).value];
            after[k].viewCount == old_.viewCount + 1 && after[k].firstViewedAt == old_.firstViewedAt)
      && (FindView(db.views, username, slug).None? ==>
            after[k].viewCount == 1 && after[k].firstViewedAt == now && |after| == |db.views| + 1)
      && forall j :: 0 <= j < |db.views| && !IsViewOf(db.views[j], username, slug) ==> after[j] == db.views[j]
  {
    var after := LogMovieView(db, username, slug, title, now).0.views;
    match FindView(db.views, username, slug)
    case Some(i) =>
      assert IsViewOf(after[i], username, slug);
      forall j | 0 <= j < |after| && j != i
        ensures !IsViewOf(after[j], username, slug)
      {
        if j > i {
          assert !(db.views[i].username == db.views[j].username && db.views[i].movieSlug == db.views[j].movieSlug);
        }
      }
      assert FindView(after, username, slug) == Some(i);
    case None =>
      var n := |db.views|;
      assert IsViewOf(after[n], username, slug);
      assert FindView(after, username, slug) == Some(n);
  }
}
